=== FILE: README.md ===
# gswap swap orchestration, modelled in Dafny

gswap is a browser front end for swapping Solana tokens through the Jupiter quoting
service. Underneath its React components and hooks sit a few sequential decision rules,
and this project models those rules and proves properties about them:

- **RPC failover** (`useSolanaConnection`): endpoints are probed in rotation from the
  current index, probing stops at the first healthy one, and that one's index is recorded.
  `setConnection` forces a URL. Modelled by `SolanaConnection`, with the hook's state as the
  fields of `ConnectionManager`.
- **Token search** (`TokenSelectList`): the case-insensitive substring filter and the
  dropdown state. Modelled by `TokenSelectList` with class `Picker`.
- **The swap form** (`SwapForm`): default tokens, pickers that clear each other, the quote
  effect's guard, `handleSwap` and the swap button. Modelled by `SwapForm` with class `Form`.
- **Quote and swap requests** (`useJupiterSwap`): the quote URL, response validation, the
  wallet-key check and the swap request body. Modelled by `JupiterSwap` with class
  `JupiterClient`.
- **The transaction watcher** (`useTransactionWatcher`): a pending toast replaced by
  exactly one success or failure toast. Modelled by `TransactionWatcher` with class
  `Toaster` and the `WatchTransaction` method.
- **Token balances** (`useTokenBalance`): the branches that turn RPC answers into a
  display balance. Modelled by `TokenBalance` with class `BalanceHook`.

Shared modules:

- `Wrappers` holds `Option` and `Result`.
- `Text` holds ASCII lower-casing, `includes`, split/join, and decimal numerals.
- `Tokens` holds the token record, `find`, and the subsequence order.
- `Solana` holds public keys, transactions, the wrapped-SOL mint and the base58 alphabet.

Every network, RPC and wallet call is a function-valued parameter (an oracle):

- the health query `getHealth`;
- `fetch` and `response.json()`, as `Http` answers;
- `VersionedTransaction.deserialize`;
- `getBalance`, `getAccountInfo`, `getAccount` and `getMint`;
- `new PublicKey(..)`, as a partial parser;
- `getAssociatedTokenAddressSync`;
- the wallet's `sendTransaction`;
- `parseFloat` and the conversion of an amount to base units.

Ghost logs record which external calls each method made (`probed`, `sent`, `calls`,
`submitted`). That is how "probes nothing" and "sends nothing" are stated.

The model follows the code, in particular:

- After a total failure, `reconnect` leaves the last published connection in place.
- A rejected confirmation is shown as "failed", the same as an on-chain error.
- A failed balance fetch sets the balance to null; it does not keep the previous value.
- A swap can post a stale quote. Changing the amount or either token keeps the quote
  (`SetAmount`, `SelectFrom`, `SelectTo`). `handleSwap` posts whatever quote the form holds,
  so the request can carry the quote fetched for an earlier amount or token pair, until the
  quote effect next runs.

## Model

| member | source | states |
|---|---|---|
| SolanaConnection.Establish | gswap/src/hooks/useSolanaConnection.ts:23-43 | a healthy answer publishes connection, URL, connected and no error; a throw sets not-connected and the error naming the URL; any other answer changes nothing |
| SolanaConnection.Select | gswap/src/hooks/useSolanaConnection.ts:45-50 | the URL and a connection for it are published; connected iff the probe answers healthy; the error is cleared when healthy and is the probe's failure when it throws; the index is untouched |
| SolanaConnection.ReconnectFrom | gswap/src/hooks/useSolanaConnection.ts:63-72 | the loop from attempt i probes at most the remaining n - i endpoints, probes none only when none remain, and leaves the index unchanged or a valid position |
| SolanaConnection.ReconnectOutcome | gswap/src/hooks/useSolanaConnection.ts:52-76 | at most n probes, none iff no endpoint is configured (then the missing-endpoint error, not connected); the index stays or becomes a valid position |
| SolanaConnection.ReconnectFromProbes | gswap/src/hooks/useSolanaConnection.ts:63-72 | from attempt i, the probes made are exactly the rotation positions from i up to and including the first healthy one |
| SolanaConnection.ReconnectFromOutcome | gswap/src/hooks/useSolanaConnection.ts:63-75 | the loop ends connected at the first healthy position with that index recorded, or not connected with the index unchanged and the last thrown error kept |
| SolanaConnection.ReconnectWithoutEndpoints | gswap/src/hooks/useSolanaConnection.ts:57-61 | with no endpoint, reconnect probes nothing and reports the missing-endpoint error |
| SolanaConnection.ReconnectFollowsRotation | gswap/src/hooks/useSolanaConnection.ts:63-64 | the i-th probe targets urls[(currentRpcIndex + i) % n], and there are at most n probes |
| SolanaConnection.ReconnectProbesEachPositionOnce | gswap/src/hooks/useSolanaConnection.ts:63-64 | no endpoint position is probed twice in one reconnect |
| SolanaConnection.ReconnectStopsAtFirstHealthy | gswap/src/hooks/useSolanaConnection.ts:66-71 | every probe except the last answered unhealthy; when connected, the last answered healthy and nothing after it was probed |
| SolanaConnection.ReconnectSuccess | gswap/src/hooks/useSolanaConnection.ts:66-70 | if some endpoint is healthy, the new index is the first healthy rotation position, lies in [0, n), and its URL is published as connected |
| SolanaConnection.ReconnectTotalFailure | gswap/src/hooks/useSolanaConnection.ts:52-75 | if no endpoint is healthy, all n are probed, the hook ends not connected, and the index and connection are unchanged |
| SolanaConnection.ConnectionManager.constructor | gswap/src/hooks/useSolanaConnection.ts:17-21 | no connection, no URL, not connected, no error, index 0 |
| SolanaConnection.ConnectionManager.EstablishConnection | gswap/src/hooks/useSolanaConnection.ts:23-43 | returns true iff the probe answers healthy; the new state is Establish's; exactly that URL is probed |
| SolanaConnection.ConnectionManager.SetConnection | gswap/src/hooks/useSolanaConnection.ts:45-50 | the new state is Select's; exactly that URL is probed |
| SolanaConnection.ConnectionManager.Reconnect | gswap/src/hooks/useSolanaConnection.ts:52-76 | the loop leaves the state and probe order that ReconnectOutcome specifies |
| Text.ToLower | gswap/src/components/TokenSelectList.tsx:26-28 | the same length as the input, each upper-case ASCII letter replaced by its lower-case form and every other character kept |
| Text.Contains | gswap/src/components/TokenSelectList.tsx:26-28 | a string only contains terms no longer than itself |
| Text.ContainsIffOccurs | gswap/src/components/TokenSelectList.tsx:26-28 | the recursive `includes` holds iff the term occurs at some position |
| Text.ToLowerIdempotent | gswap/src/components/TokenSelectList.tsx:26-28 | lower-casing twice is lower-casing once |
| TokenSelectList.Matches | gswap/src/components/TokenSelectList.tsx:26-28 | a token matches iff the lower-cased term occurs at some position of its lower-cased symbol, name or address |
| TokenSelectList.FilterTokens | gswap/src/components/TokenSelectList.tsx:25-29 | every listed token matches the term case-insensitively in symbol, name or address, and every matching token is listed |
| TokenSelectList.FilterKeepsOrder | gswap/src/components/TokenSelectList.tsx:25 | the filtered list is an order-preserving subsequence of the token list |
| TokenSelectList.FilterCounts | gswap/src/components/TokenSelectList.tsx:25-29 | a matching token occurs as often as in the list, a non-matching one never |
| TokenSelectList.EmptyTermShowsAll | gswap/src/components/TokenSelectList.tsx:23-29 | the initial empty term lists every token |
| TokenSelectList.FilterIgnoresCase | gswap/src/components/TokenSelectList.tsx:26-28 | terms equal up to letter case select the same tokens |
| TokenSelectList.FilterLowerCasedTerm | gswap/src/components/TokenSelectList.tsx:26-28 | a term and its lower-cased form select the same tokens |
| TokenSelectList.Picker.constructor | gswap/src/components/TokenSelectList.tsx:22-23 | closed, with an empty search term |
| TokenSelectList.Picker.Toggle | gswap/src/components/TokenSelectList.tsx:34 | the dropdown flips, the term stays |
| TokenSelectList.Picker.Search | gswap/src/components/TokenSelectList.tsx:58 | the term is replaced, the dropdown stays |
| TokenSelectList.Picker.SelectItem | gswap/src/components/TokenSelectList.tsx:64-68 | the clicked entry, a matching token of the list, is handed over; the dropdown closes and the term is cleared |
| Tokens.FindIndex | gswap/src/components/SwapForm.tsx:43 | the index of the first token satisfying the predicate, or none when no token does |
| Tokens.Find | gswap/src/components/SwapForm.tsx:48 | the first token of the list satisfying the predicate, or none when no token does |
| SwapForm.DefaultFrom | gswap/src/components/SwapForm.tsx:43-44 | the first native SOL token, or the first token when there is none |
| SwapForm.DefaultToAsWritten | gswap/src/components/SwapForm.tsx:48-50 | the first USDC token, else the first token whose address differs from the given from-token, else the first token |
| SwapForm.DefaultsAsWritten | gswap/src/components/SwapForm.tsx:38-53 | with a non-empty list the empty slots are filled and selected tokens are kept; an empty list changes nothing |
| SwapForm.DefaultsCoincide | gswap/src/components/SwapForm.tsx:50 | first run, no native SOL and no USDC: both defaults are the first token |
| SwapForm.DefaultTo | gswap/src/components/SwapForm.tsx:48-50 | a token whose address differs from the from-token whenever the list has one, preferring USDC |
| SwapForm.Defaults | gswap/src/components/SwapForm.tsx:38-53 | fills only empty slots, and only for a non-empty list; a filled to-slot differs in address from the resulting from-token whenever the list has such a token |
| SwapForm.DefaultsDiffer | gswap/src/components/SwapForm.tsx:48-50 | with two distinct addresses in the list, the corrected defaults pick tokens with different addresses |
| SwapForm.PickerChoices | gswap/src/components/SwapForm.tsx:149 | a picker lists exactly the tokens other than the other side's selection (lines 149 and 171) |
| SwapForm.PickerChoicesInOrder | gswap/src/components/SwapForm.tsx:171 | the picker list keeps the token list's order |
| SwapForm.PickerChoicesAll | gswap/src/components/SwapForm.tsx:149 | with nothing selected on the other side, the picker lists every token |
| SwapForm.QuoteInputsReady | gswap/src/components/SwapForm.tsx:57 | inputs that get a quote fetched have a positive amount, so they also pass handleSwap's `<= 0` test |
| SwapForm.SwapButtonDisabled | gswap/src/components/SwapForm.tsx:202 | an enabled button means a connected wallet and inputs that pass handleSwap's second guard (line 85) |
| SwapForm.SwapButtonMatchesGuards | gswap/src/components/SwapForm.tsx:200-202 | the button's operand-by-operand test (line 202) is enabled iff connected, not loading, and handleSwap's guard of line 85 passes |
| SwapForm.QuoteReadyAmountPassesSwapGuard | gswap/src/components/SwapForm.tsx:57 | inputs that get a quote fetched pass handleSwap's input guard once a quote is present |
| SwapForm.AfterSwapTransaction | gswap/src/components/SwapForm.tsx:95-128 | submitted iff a transaction was built and the wallet sent it, with the wallet's signature; a thrown request error is reported as such |
| SwapForm.Form.constructor | gswap/src/components/SwapForm.tsx:29-33 | no tokens, empty amount, no quote, slippage 0.5 |
| SwapForm.Form.ApplyDefaults | gswap/src/components/SwapForm.tsx:38-53 | the selection becomes DefaultsAsWritten's; nothing else changes |
| SwapForm.Form.SelectFrom | gswap/src/components/SwapForm.tsx:145-148 | the from-token is set; the to-token is cleared if it was that token; the two sides differ afterwards |
| SwapForm.Form.SelectTo | gswap/src/components/SwapForm.tsx:167-170 | the to-token is set; the from-token is cleared if it was that token; the two sides differ afterwards |
| SwapForm.Form.SetAmount | gswap/src/components/SwapForm.tsx:156 | the amount is replaced, nothing else |
| SwapForm.Form.SetSlippage | gswap/src/components/SwapForm.tsx:187 | the slippage is replaced, nothing else |
| SwapForm.Form.FetchQuote | gswap/src/components/SwapForm.tsx:55-78 | incomplete inputs or a non-positive amount clear the quote without a request; otherwise one quote request at 50 bps, and the quote kept or cleared on error; a kept quote always has routes |
| SwapForm.Form.HandleSwap | gswap/src/components/SwapForm.tsx:80-129 | no wallet: refused with no request; incomplete inputs: refused with no request; otherwise one swap request with the quote and key, and a built transaction handed to the wallet; a click on an enabled button with a wallet key sends exactly one swap request; the client's loading flag is unchanged when refused and false after a request |
| Text.ParseNatToString | gswap/src/hooks/useJupiterSwap.ts:29 | a rendered whole number reads back as itself |
| JupiterSwap.QuoteUrl | gswap/src/hooks/useJupiterSwap.ts:28-30 | the URL is the quote endpoint followed by the four `key=value` fields joined with `&` |
| JupiterSwap.QuoteUrlSplits | gswap/src/hooks/useJupiterSwap.ts:29 | the query string splits at `&` into the four fields in order |
| JupiterSwap.QuoteUrlRoundTrip | gswap/src/hooks/useJupiterSwap.ts:28-30 | the URL carries both mints, the amount and the slippage, recoverably |
| JupiterSwap.QuoteOutcome | gswap/src/hooks/useJupiterSwap.ts:31-42 | a quote is returned, unchanged, iff the response is ok and has a non-empty routePlan; non-ok gives an HTTP error; a missing or empty routePlan gives "no routes" |
| JupiterSwap.SwapOutcome | gswap/src/hooks/useJupiterSwap.ts:73-82 | a transaction iff ok with a decodable swapTransaction; non-ok gives the service's error text or else the status text |
| JupiterSwap.JupiterClient.constructor | gswap/src/hooks/useJupiterSwap.ts:22 | not loading, nothing sent |
| JupiterSwap.JupiterClient.GetQuote | gswap/src/hooks/useJupiterSwap.ts:25-49 | one GET of the quote URL; the result is QuoteOutcome of the answer; not loading afterwards |
| JupiterSwap.JupiterClient.GetSwapTransaction | gswap/src/hooks/useJupiterSwap.ts:52-91 | no key: null and nothing sent; otherwise one POST echoing the quote with the key and wrapAndUnwrapSol true, and SwapOutcome's result; not loading afterwards |
| TransactionWatcher.TerminalStatus | gswap/src/hooks/useTransactionWatcher.ts:80-91 | never pending; success iff confirmed without error; failed iff an on-chain error or a rejected request |
| TransactionWatcher.StatusSequence | gswap/src/hooks/useTransactionWatcher.ts:76-91 | pending first, then exactly one terminal status |
| TransactionWatcher.RejectionLooksLikeFailure | gswap/src/hooks/useTransactionWatcher.ts:88-91 | a rejected confirmation is shown exactly like an on-chain failure |
| TransactionWatcher.ExplorerLink | gswap/src/hooks/useTransactionWatcher.ts:18 | the link starts with the explorer's transaction path, holds the signature right after it and ends with the cluster |
| TransactionWatcher.ExplorerLinkRoundTrip | gswap/src/hooks/useTransactionWatcher.ts:18 | the link names the signature and the cluster, recoverably |
| TransactionWatcher.Toaster.Show | gswap/src/hooks/useTransactionWatcher.ts:24 | a toast under a fresh id is added to the screen |
| TransactionWatcher.Toaster.Dismiss | gswap/src/hooks/useTransactionWatcher.ts:20 | that id leaves the screen |
| TransactionWatcher.ShowTransactionToast | gswap/src/hooks/useTransactionWatcher.ts:17-73 | the previous watcher toast is dismissed and the new status is shown with the link |
| TransactionWatcher.WatchTransaction | gswap/src/hooks/useTransactionWatcher.ts:14-93 | pending then the terminal status are shown, both linking to the signature; only the terminal toast remains |
| TokenBalance.DisplayAmount | gswap/src/hooks/useTokenBalance.ts:46 | non-negative, zero iff the raw amount is, and times 10^decimals gives the raw amount |
| TokenBalance.DisplayWholeTokens | gswap/src/hooks/useTokenBalance.ts:46 | whole tokens scaled to base units display as themselves |
| TokenBalance.Settle | gswap/src/hooks/useTokenBalance.ts:51-57 | loading ends; there is a balance iff there is no error |
| TokenBalance.NativeBalance | gswap/src/hooks/useTokenBalance.ts:37-38 | one getBalance call; lamports / 10^9 or the call's error |
| TokenBalance.SplBalanceAsWritten | gswap/src/hooks/useTokenBalance.ts:41-48 | a missing associated account gives 0 after one call; an existing one gives NaN; a failed read gives its error |
| TokenBalance.SplBalance | gswap/src/hooks/useTokenBalance.ts:41-48 | as SplBalanceAsWritten, except that an existing account gives its amount / 10^(its mint's decimals), never NaN |
| TokenBalance.ResolveAsWritten | gswap/src/hooks/useTokenBalance.ts:22-58 | missing inputs give null, not loading, no call; an unparseable mint is an error with no call; a parsed native mint goes to NativeBalance, any other parsed mint to SplBalanceAsWritten of its associated account; a balance iff no error |
| TokenBalance.Resolve | gswap/src/hooks/useTokenBalance.ts:22-58 | native mint ids go to NativeBalance before any parse; an unparseable other mint is an error; a parsed one goes to SplBalance of its associated account; never NaN |
| TokenBalance.BalancesAsWritten | gswap/src/hooks/useTokenBalance.ts:36-48 | the wrapped-SOL mint gives lamports / 10^9 with one getBalance call; a mint without an associated account gives 0; an error always comes with no balance |
| TokenBalance.SplBalanceIsNaN | gswap/src/hooks/useTokenBalance.ts:46 | as written, an SPL mint with an existing associated account ends with balance NaN and no error |
| TokenBalance.SplBalanceScalesByMintDecimals | gswap/src/hooks/useTokenBalance.ts:46 | corrected, that balance is the raw amount / 10^(the mint's decimals), read with one more call |
| TokenBalance.ZeroOnlyFromChain | gswap/src/hooks/useTokenBalance.ts:44-48 | a zero balance comes from zero lamports or a missing associated account, never from an error |
| TokenBalance.SolSymbolRejectedAsWritten | gswap/src/hooks/useTokenBalance.ts:33-36 | with a base58-only parser, the mint id 'SOL' ends in an error with no call |
| TokenBalance.SolSymbolReadsLamports | gswap/src/hooks/useTokenBalance.ts:36-38 | with the native check first, 'SOL' reads the owner's lamports |
| TokenBalance.BalanceHook.constructor | gswap/src/hooks/useTokenBalance.ts:18-20 | no balance, loading, no error |
| TokenBalance.BalanceHook.FetchBalance | gswap/src/hooks/useTokenBalance.ts:22-58 | the new state and the reads made are ResolveAsWritten's |

## Left out

- Timing and concurrency are not modelled. This covers the 500 ms quote debounce, the
  15 s balance polling, React's batching of state updates and its effect re-runs. Each
  effect or handler is one sequential step that reads the state it started with.
- Floating point is not modelled. `parseFloat` is an oracle giving an exact real, with
  `None` standing for NaN. `parseFloat(amount) * 10 ** decimals` is an oracle giving a whole
  number. `Number(bigint)` and `lamports / 10 ** 9` are exact rationals. Only the NaN of a
  division by an undefined divisor is kept, as the balance value `NaN`.
- The display of amounts is not modelled: `toFixed`, the price impact and the rate.
- JupiterSwap.QuoteUrl renders the amount as a decimal whole number. A JS number can
  render with a fraction or an exponent, and those forms are not modelled.
- JupiterSwap.ParseQuoteUrl reads the query string back for the round trip. The quoting
  service's own parser is not part of this model.
- JupiterSwap.QuoteUrlRoundTrip requires that neither mint contains `&`. Base58 mint ids
  never do.
- Request bodies are datatypes, not JSON text. `JSON.stringify` and base64 are not modelled.
- Toast messages, styles, durations and console logging are not modelled.
  `handleSwap`'s own toasts are reduced to the `SwapResult` it ends with.
- SwapForm.Form.HandleSwap does not model the connection that `sendTransaction`
  receives, which is built from an environment URL. The wallet's send is an oracle. The
  form never starts the transaction watcher, so the two are not connected here either.
- Token equality in the pickers is JS object identity (`===`). The model uses value
  equality. Two entries with equal fields are therefore treated as the same token.
- SolanaConnection.ConnectionManager.Reconnect fixes the probe oracle for the whole
  loop. An endpoint listed twice answers the same both times. The stale
  `currentRpcIndex` closure and the toasts are left out.
- SolanaConnection.ConnectionManager.SetConnection runs its probe to completion
  immediately. The hook does not await it.
- SolanaConnection.ConnectionManager.SetConnection always completes. In the hook,
  `new Connection(url)` at gswap/src/hooks/useSolanaConnection.ts:47 sits outside any `try`,
  so a malformed URL throws there. It throws after `setCurrentRpcUrl(url)` at :46 has recorded
  the URL, and before the connection, `isConnected` or the probe change. That case is not modelled.
- TransactionWatcher.ExplorerLinkRoundTrip requires that the signature contains no `?`.
  Base58 signatures never do. A link for another text cannot be read back unambiguously.
- Text.ToLower lowers the ASCII letters `A`-`Z` only. `toLowerCase` also lowers other
  Unicode letters, so the filter's case-insensitivity is proved for ASCII case only.
- TokenBalance.SplBalance, the corrected SPL branch, reads the mint's decimals with the
  library's `getMint`. That call is an addition to the hook, made to state the intended
  scaling.
- `getAssociatedTokenAddressSync` is a total oracle. The library throws for an owner key
  off the curve, and that case is not modelled.
- TokenBalance.BalanceHook.FetchBalance keeps the error message's prefix text out of the
  model. It keeps the error's cause (`InvalidMint` or `RpcFailed`).
- The form's `slippage` field is modelled but is never read when quoting, as in the
  source. The quote always uses the 50 bps default.
- gswap/src/hooks/useWalletBalance.ts, gswap/src/components/WalletConnectProvider.tsx,
  gswap/src/hooks/useSolanaConnection.tsx, gswap/src/utils/solana.ts and the UI
  components are not part of this model.

## Findings

The form and balance hook classes follow the source as written. The corrected definitions stand beside
them, and the intended properties are proved about those definitions.

| source | as written | input that shows it | evidently intended | confidence | as-written member | corrected member |
|---|---|---|---|---|---|---|
| gswap/src/components/SwapForm.tsx:50 | the default to-token is chosen against the from-token of the current render, which is still empty on the first run | a token list with no native SOL and no USDC, e.g. [A, B], with nothing selected: both defaults are A | the to-token differs from the from-token whenever the list offers one | not executed | SwapForm.DefaultsCoincide | SwapForm.DefaultsDiffer |
| gswap/src/hooks/useTokenBalance.ts:33-36 | the mint id is parsed as a public key before the native check, so `'SOL'` (which contains `O`, outside base58) throws before reaching the `'SOL'` branch | mint id `"SOL"` with a connected wallet: balance null and an error | `'SOL'` reads the owner's lamports like the wrapped-SOL mint | not executed | TokenBalance.SolSymbolRejectedAsWritten | TokenBalance.SolSymbolReadsLamports |
| gswap/src/hooks/useTokenBalance.ts:46 | the SPL balance divides by `10 ** tokenAccount.mint.decimals`, but the account record that `getAccount` returns holds the mint as a public key, which has no `decimals`, so the divisor and the balance are NaN | any SPL mint whose associated token account exists: balance NaN and no error | the raw amount divided by 10 to the mint's decimals | not executed; relies on the published @solana/spl-token `Account` type | TokenBalance.SplBalanceIsNaN | TokenBalance.SplBalanceScalesByMintDecimals |

=== FILE: jupiter_swap.dfy ===
/**
 * Quote and swap-transaction requests to the quoting service
 * (gswap/src/hooks/useJupiterSwap.ts). `fetch`, `response.json()` and the transaction
 * decoder are oracles; the hook's `isLoading` flag is the field of `JupiterClient`.
 */
module JupiterSwap {
  import opened Wrappers
  import opened Text
  import opened Solana

  const ApiBase := "https://quote-api.jup.ag/v6"

  /** The slippage tolerance `getQuote` uses when its caller gives none, in basis points. */
  const DefaultSlippageBps: nat := 50

  /** One leg of a route; its contents are the quoting service's business. */
  datatype RouteStep = RouteStep(payload: string)

  /** A quote as the service returns it; it is echoed unchanged into the swap request. */
  datatype QuoteData = QuoteData(
    inputMint: string,
    inAmount: string,
    outputMint: string,
    outAmount: string,
    priceImpactPct: string,
    routePlan: Option<seq<RouteStep>>)

  /** What `response.json()` gives: it throws on a malformed body, and `null` is a body too. */
  datatype Json<T> = Malformed | Null | Value(value: T)

  /** What `fetch` gives: a rejected promise (transport failure) or an HTTP response. */
  datatype Http<T> = NetworkError(message: string) | Response(ok: bool, statusText: string, body: Json<T>)

  /** The errors the two requests throw. */
  datatype ApiError =
    | Transport(message: string)     // fetch itself failed
    | HttpError(message: string)     // a non-ok status, with its status text or the service's error text
    | BadBody                        // the body could not be read as the expected JSON
    | NoRoutes                       // the quote has no route (missing or empty routePlan)
    | BadTransaction                 // the swap transaction could not be decoded

  // ---------------------------------------------------------------------------
  // The quote query
  // ---------------------------------------------------------------------------

  /** The four parameters of the quote query. */
  datatype QuoteQuery = QuoteQuery(inputMint: string, outputMint: string, amount: nat, slippageBps: nat)

  /** A `key=value` field of a query string. */
  function Param(key: string, value: string): string {
    key + "=" + value
  }

  /** The quote URL as the hook's template literal writes it. */
  function QuoteUrl(q: QuoteQuery): (r: string)
    ensures QuotePrefix <= r
    ensures r[|QuotePrefix|..] == Join(QuoteParams(q), '&')
  {
    var f0, f1 := Param("inputMint", q.inputMint), Param("outputMint", q.outputMint);
    var f2, f3 := Param("amount", NatToString(q.amount)), Param("slippageBps", NatToString(q.slippageBps));
    JoinFour(f0, f1, f2, f3);
    var url := ApiBase + "/quote?" + f0 + "&" + f1 + "&" + f2 + "&" + f3;
    assert url == QuotePrefix + (f0 + "&" + f1 + "&" + f2 + "&" + f3);
    url
  }

  const QuotePrefix := ApiBase + "/quote?"

  /** The value of a `key=value` query field named `key`. */
  function Field(f: string, key: string): Option<string> {
    match SplitOnce(f, '=')
    case Some((k, v)) => if k == key then Some(v) else None
    case None => None
  }

  /** Reads the four parameters back from a quote URL. */
  function ParseQuoteUrl(url: string): Option<QuoteQuery> {
    if !(QuotePrefix <= url) then None
    else
      var fields := Split(url[|QuotePrefix|..], '&');
      if |fields| != 4 then None
      else
        match (Field(fields[0], "inputMint"), Field(fields[1], "outputMint"),
               Field(fields[2], "amount"), Field(fields[3], "slippageBps"))
        case (Some(a), Some(b), Some(n), Some(s)) =>
          (match (ParseNat(n), ParseNat(s))
           case (Some(amount), Some(bps)) => Some(QuoteQuery(a, b, amount, bps))
           case _ => None)
        case _ => None
  }

  /** Joining four fields with `&` puts one `&` between neighbours. */
  lemma JoinFour(f0: string, f1: string, f2: string, f3: string)
    ensures Join([f0, f1, f2, f3], '&') == f0 + "&" + f1 + "&" + f2 + "&" + f3
  {
    assert Join([f3], '&') == f3;
    assert Join([f2, f3], '&') == f2 + "&" + f3 by {
      assert [f2, f3][1..] == [f3];
    }
    assert Join([f1, f2, f3], '&') == f1 + "&" + (f2 + "&" + f3) by {
      assert [f1, f2, f3][1..] == [f2, f3];
    }
    assert Join([f0, f1, f2, f3], '&') == f0 + "&" + (f1 + "&" + (f2 + "&" + f3)) by {
      assert [f0, f1, f2, f3][1..] == [f1, f2, f3];
    }
  }

  /** A field whose key has no `=` reads back its value. */
  lemma FieldOfParam(key: string, value: string)
    requires '=' !in key
    ensures Field(Param(key, value), key) == Some(value)
  {
    SplitOnceAt(key, value, '=');
  }

  /** A field is free of a character its key and value are free of, unless it is `=`. */
  lemma ParamFreeOf(key: string, value: string, c: char)
    requires c != '=' && c !in key && c !in value
    ensures c !in Param(key, value)
  {
    var f := Param(key, value);
    assert forall i :: 0 <= i < |f| ==> f[i] != c by {
      forall i | 0 <= i < |f|
        ensures f[i] != c
      {
        if i < |key| {
          assert f[i] == key[i];
        } else if i > |key| {
          assert f[i] == value[i - |key| - 1];
        }
      }
    }
  }

  /** The four query fields, in the order the URL lists them. */
  function QuoteParams(q: QuoteQuery): seq<string> {
    [Param("inputMint", q.inputMint), Param("outputMint", q.outputMint),
     Param("amount", NatToString(q.amount)), Param("slippageBps", NatToString(q.slippageBps))]
  }

  /** Splitting the query string of a quote URL at `&` gives back its four fields. */
  lemma QuoteUrlSplits(q: QuoteQuery)
    requires '&' !in q.inputMint && '&' !in q.outputMint
    ensures Split(QuoteUrl(q)[|QuotePrefix|..], '&') == QuoteParams(q)
  {
    var parts := QuoteParams(q);
    NumeralFreeOf(q.amount, '&');
    NumeralFreeOf(q.slippageBps, '&');
    ParamFreeOf("inputMint", q.inputMint, '&');
    ParamFreeOf("outputMint", q.outputMint, '&');
    ParamFreeOf("amount", NatToString(q.amount), '&');
    ParamFreeOf("slippageBps", NatToString(q.slippageBps), '&');
    SplitJoin(parts, '&');
  }

  /** The quote URL carries the two mints, the amount and the slippage, recoverably. */
  lemma QuoteUrlRoundTrip(q: QuoteQuery)
    requires '&' !in q.inputMint && '&' !in q.outputMint
    ensures ParseQuoteUrl(QuoteUrl(q)) == Some(q)
  {
    QuoteUrlSplits(q);
    FieldOfParam("inputMint", q.inputMint);
    FieldOfParam("outputMint", q.outputMint);
    FieldOfParam("amount", NatToString(q.amount));
    FieldOfParam("slippageBps", NatToString(q.slippageBps));
    ParseNatToString(q.amount);
    ParseNatToString(q.slippageBps);
  }

  // ---------------------------------------------------------------------------
  // Quote response validation
  // ---------------------------------------------------------------------------

  /** `data.routePlan` is present and non-empty. */
  predicate HasRoutes(d: QuoteData) {
    d.routePlan.Some? && |d.routePlan.value| > 0
  }

  /** What `getQuote` returns or throws for the service's response `resp`. */
  function QuoteOutcome(resp: Http<QuoteData>): (r: Result<QuoteData, ApiError>)
    ensures r.Ok? <==> resp.Response? && resp.ok && resp.body.Value? && HasRoutes(resp.body.value)
    ensures r.Ok? ==> r.value == resp.body.value
    ensures resp.Response? && !resp.ok ==> r == Err(HttpError(resp.statusText))
    ensures resp.Response? && resp.ok && resp.body.Null? ==> r == Err(NoRoutes)
    ensures resp.Response? && resp.ok && resp.body.Value? && !HasRoutes(resp.body.value) ==> r == Err(NoRoutes)
  {
    match resp
    case NetworkError(m) => Err(Transport(m))
    case Response(ok, statusText, body) =>
      if !ok then Err(HttpError(statusText))
      else
        match body
        case Malformed => Err(BadBody)
        case Null => Err(NoRoutes)
        case Value(data) => if HasRoutes(data) then Ok(data) else Err(NoRoutes)
  }

  // ---------------------------------------------------------------------------
  // The swap request
  // ---------------------------------------------------------------------------

  /** The JSON body posted to `/swap`. */
  datatype SwapRequest = SwapRequest(quoteResponse: QuoteData, userPublicKey: string, wrapAndUnwrapSol: bool)

  /** The JSON the `/swap` endpoint answers: `swapTransaction` on success, `error` on failure. */
  datatype SwapJson = SwapJson(swapTransaction: Option<string>, error: Option<string>)

  /** `getSwapTransaction`'s three ways out: `null`, a transaction, or a thrown error. */
  datatype SwapTx = NoWallet | Built(tx: Transaction) | Failed(error: ApiError)

  /**
   * What `getSwapTransaction` returns or throws once the request was sent and answered
   * with `resp`; `deserialize` decodes the base64 transaction (None when that throws).
   */
  function SwapOutcome(resp: Http<SwapJson>, deserialize: string -> Option<Transaction>): (r: SwapTx)
    ensures !r.NoWallet?
    ensures r.Built? <==>
      && resp.Response? && resp.ok && resp.body.Value?
      && resp.body.value.swapTransaction.Some?
      && deserialize(resp.body.value.swapTransaction.value).Some?
    ensures r.Built? ==> Some(r.tx) == deserialize(resp.body.value.swapTransaction.value)
    ensures resp.Response? && !resp.ok && resp.body.Value? ==>
      r == Failed(HttpError(
        if resp.body.value.error.Some? && resp.body.value.error.value != "" then resp.body.value.error.value
        else resp.statusText))
  {
    match resp
    case NetworkError(m) => Failed(Transport(m))
    case Response(ok, statusText, body) =>
      if !ok then
        match body
        case Value(j) =>
          Failed(HttpError(if j.error.Some? && j.error.value != "" then j.error.value else statusText))
        case _ => Failed(BadBody)
      else
        match body
        case Value(j) =>
          (match j.swapTransaction
           case Some(encoded) =>
             (match deserialize(encoded)
              case Some(tx) => Built(tx)
              case None => Failed(BadTransaction))
           case None => Failed(BadTransaction))
        case _ => Failed(BadBody)
  }

  /** A request the hook sent to the service. */
  datatype Request = QuoteGet(url: string) | SwapPost(body: SwapRequest)

  /** The state of `useJupiterSwap`: its loading flag, and the requests sent so far. */
  class JupiterClient {
    var isLoading: bool
    ghost var sent: seq<Request>

    constructor ()
      ensures !isLoading && sent == []
    {
      isLoading := false;
      sent := [];
    }

    /** `getQuote`: one GET of the quote URL, then validation of the answer; proved equal to `QuoteOutcome`. */
    method GetQuote(fromMint: string, toMint: string, amount: nat, fetch: string -> Http<QuoteData>,
                    slippageBps: nat := DefaultSlippageBps)
      returns (r: Result<QuoteData, ApiError>)
      modifies this
      ensures sent == old(sent) + [QuoteGet(QuoteUrl(QuoteQuery(fromMint, toMint, amount, slippageBps)))]
      ensures r == QuoteOutcome(fetch(QuoteUrl(QuoteQuery(fromMint, toMint, amount, slippageBps))))
      ensures !isLoading
    {
      isLoading := true;
      var url := QuoteUrl(QuoteQuery(fromMint, toMint, amount, slippageBps));
      sent := sent + [QuoteGet(url)];
      var response := fetch(url);
      match response {
        case NetworkError(m) =>
          r := Err(Transport(m));
        case Response(ok, statusText, body) =>
          if !ok {
            r := Err(HttpError(statusText));
          } else {
            match body {
              case Malformed =>
                r := Err(BadBody);
              case Null =>
                r := Err(NoRoutes);
              case Value(data) =>
                if !HasRoutes(data) {
                  r := Err(NoRoutes);
                } else {
                  r := Ok(data);
                }
            }
          }
      }
      isLoading := false;
    }

    /**
     * `getSwapTransaction`: refuses without a wallet key, else posts the quote and decodes the
     * answer; proved equal to `SwapOutcome`.
     */
    method GetSwapTransaction(quote: QuoteData, publicKey: Option<PublicKey>,
                              fetch: SwapRequest -> Http<SwapJson>, deserialize: string -> Option<Transaction>)
      returns (r: SwapTx)
      modifies this
      ensures publicKey.None? ==> r == NoWallet && sent == old(sent)
      ensures publicKey.Some? ==>
        var body := SwapRequest(quote, publicKey.value.base58, true);
        sent == old(sent) + [SwapPost(body)] && r == SwapOutcome(fetch(body), deserialize)
      ensures !isLoading
    {
      isLoading := true;
      if publicKey.None? {
        isLoading := false;
        return NoWallet;
      }
      var body := SwapRequest(quote, publicKey.value.base58, true);
      sent := sent + [SwapPost(body)];
      var response := fetch(body);
      match response {
        case NetworkError(m) =>
          r := Failed(Transport(m));
        case Response(ok, statusText, json) =>
          if !ok {
            match json {
              case Value(j) =>
                var message := if j.error.Some? && j.error.value != "" then j.error.value else statusText;
                r := Failed(HttpError(message));
              case _ =>
                r := Failed(BadBody);
            }
          } else {
            match json {
              case Value(j) =>
                if j.swapTransaction.None? {
                  r := Failed(BadTransaction);
                } else {
                  var decoded := deserialize(j.swapTransaction.value);
                  r := if decoded.Some? then Built(decoded.value) else Failed(BadTransaction);
                }
              case _ =>
                r := Failed(BadBody);
            }
          }
      }
      isLoading := false;
    }
  }
}

=== FILE: solana.dfy ===
/** Chain-level values the hooks pass around without looking inside. */
module Solana {

  /** A public key, kept as its base58 text (`toBase58()`). */
  datatype PublicKey = PublicKey(base58: string)

  /** A signable transaction as the wallet receives it; its bytes are opaque here. */
  datatype Transaction = Transaction(serialized: string)

  /** The mint id of wrapped SOL, which the balance hook treats as the native asset. */
  const WrappedSolMint := "So11111111111111111111111111111111111111112"

  /** The characters of the base58 alphabet (no `0`, `O`, `I` or `l`). */
  predicate IsBase58Char(c: char) {
    ('1' <= c <= '9') || ('A' <= c <= 'H') || ('J' <= c <= 'N') || ('P' <= c <= 'Z')
    || ('a' <= c <= 'k') || ('m' <= c <= 'z')
  }

  predicate IsBase58(s: string) {
    forall i :: 0 <= i < |s| ==> IsBase58Char(s[i])
  }
}

=== FILE: solana_connection.dfy ===
/**
 * RPC endpoint selection with health-checked failover
 * (gswap/src/hooks/useSolanaConnection.ts). The hook's five state variables become the
 * fields of `ConnectionManager`; the health query `getHealth()` is an oracle `probe` from
 * endpoint URL to its answer.
 */
module SolanaConnection {
  import opened Wrappers

  type Url = string

  /** What `getHealth()` does for an endpoint: answers `'ok'`, answers something else, or throws. */
  datatype Health = Healthy | Unhealthy(answer: string) | Threw(message: string)

  /** The two error messages the hook publishes. */
  datatype ConnError =
    | NoEndpoints                              // no endpoint configured
    | ProbeFailed(url: Url, message: string)   // the health query of `url` threw `message`

  /** A `Connection` object bound to one endpoint (commitment 'confirmed'). */
  datatype Handle = Handle(url: Url)

  /** A snapshot of the hook's state. */
  datatype ConnState = ConnState(
    connection: Option<Handle>,
    currentRpcUrl: Option<Url>,
    isConnected: bool,
    error: Option<ConnError>,
    currentRpcIndex: nat)

  /** The state `establishConnection(url)` leaves when the health query of `url` does `h`. */
  function Establish(s: ConnState, url: Url, h: Health): (r: ConnState)
    ensures r.currentRpcIndex == s.currentRpcIndex
    ensures h.Healthy? ==> r.connection == Some(Handle(url)) && r.currentRpcUrl == Some(url)
    ensures h.Healthy? ==> r.isConnected && r.error == None
    ensures !h.Healthy? ==> r.connection == s.connection && r.currentRpcUrl == s.currentRpcUrl
    ensures h.Threw? ==> !r.isConnected && r.error == Some(ProbeFailed(url, h.message))
    ensures h.Unhealthy? ==> r == s
  {
    match h
    case Healthy =>
      s.(connection := Some(Handle(url)), currentRpcUrl := Some(url), isConnected := true, error := None)
    case Unhealthy(_) => s
    case Threw(m) => s.(error := Some(ProbeFailed(url, m)), isConnected := false)
  }

  /**
   * `setConnection(url)`: the URL and a fresh connection for it are published and marked
   * not connected, then the endpoint is probed.
   */
  function Select(s: ConnState, url: Url, h: Health): (r: ConnState)
    ensures r.currentRpcUrl == Some(url) && r.connection == Some(Handle(url))
    ensures r.isConnected <==> h.Healthy?
    ensures r.currentRpcIndex == s.currentRpcIndex
    ensures h.Healthy? ==> r.error == None
    ensures h.Threw? ==> r.error == Some(ProbeFailed(url, h.message))
    ensures h.Unhealthy? ==> r.error == s.error
  {
    Establish(s.(currentRpcUrl := Some(url), connection := Some(Handle(url)), isConnected := false), url, h)
  }

  /** The final state of a `reconnect` and the endpoints it probed, in order. */
  datatype Attempt = Attempt(state: ConnState, probed: seq<Url>)

  /** Attempt `i` of the rotation probes the endpoint at position `(start + i) % n`. */
  predicate HealthyAt(urls: seq<Url>, start: nat, probe: Url -> Health, i: nat)
    requires |urls| > 0
  {
    probe(urls[(start + i) % |urls|]).Healthy?
  }

  /** The loop of `reconnect` from attempt `i` on, in state `s`. */
  function ReconnectFrom(urls: seq<Url>, start: nat, probe: Url -> Health, s: ConnState, i: nat): (r: Attempt)
    requires |urls| > 0 && i <= |urls|
    ensures |r.probed| <= |urls| - i
    ensures r.probed == [] <==> i == |urls|
    ensures r.state.currentRpcIndex == s.currentRpcIndex || r.state.currentRpcIndex < |urls|
    decreases |urls| - i
  {
    if i == |urls| then Attempt(s, [])
    else
      var k := (start + i) % |urls|;
      var url := urls[k];
      var next := Establish(s, url, probe(url));
      if probe(url).Healthy? then Attempt(next.(currentRpcIndex := k), [url])
      else
        var rest := ReconnectFrom(urls, start, probe, next, i + 1);
        Attempt(rest.state, [url] + rest.probed)
  }

  /** `reconnect()` from state `s` over the configured endpoint list `urls`. */
  function ReconnectOutcome(urls: seq<Url>, s: ConnState, probe: Url -> Health): (r: Attempt)
    ensures |r.probed| <= |urls|
    ensures r.probed == [] <==> |urls| == 0
    ensures r.state.currentRpcIndex == s.currentRpcIndex || r.state.currentRpcIndex < |urls|
    ensures |urls| == 0 ==> r.state.error == Some(NoEndpoints) && !r.state.isConnected
  {
    var cleared := s.(error := None, isConnected := false);
    if |urls| == 0 then Attempt(cleared.(error := Some(NoEndpoints)), [])
    else ReconnectFrom(urls, s.currentRpcIndex, probe, cleared, 0)
  }

  /** The error a failed probe leaves behind, on top of the previous one. */
  function ErrorStep(e: Option<ConnError>, url: Url, h: Health): Option<ConnError> {
    if h.Threw? then Some(ProbeFailed(url, h.message)) else e
  }

  /** The error after probes `ps` all failed: that of the last probe that threw, else `e`. */
  function LastProbeError(e: Option<ConnError>, ps: seq<Url>, probe: Url -> Health): Option<ConnError>
    decreases |ps|
  {
    if |ps| == 0 then e
    else
      var last := ps[|ps| - 1];
      if probe(last).Threw? then Some(ProbeFailed(last, probe(last).message))
      else LastProbeError(e, ps[..|ps| - 1], probe)
  }

  lemma {:induction false} LastProbeErrorCons(e: Option<ConnError>, url: Url, rest: seq<Url>, probe: Url -> Health)
    ensures LastProbeError(e, [url] + rest, probe) == LastProbeError(ErrorStep(e, url, probe(url)), rest, probe)
    decreases |rest|
  {
    var ps := [url] + rest;
    if |rest| > 0 {
      assert ps[..|ps| - 1] == [url] + rest[..|rest| - 1];
      assert ps[|ps| - 1] == rest[|rest| - 1];
      LastProbeErrorCons(e, url, rest[..|rest| - 1], probe);
    } else {
      assert ps[..|ps| - 1] == [];
    }
  }

  /** From attempt i on, the loop probes a prefix of the rotation and stops after the first healthy endpoint. */
  lemma {:induction false} ReconnectFromProbes(urls: seq<Url>, start: nat, probe: Url -> Health, s: ConnState, i: nat)
    requires |urls| > 0 && i <= |urls|
    ensures var ps := ReconnectFrom(urls, start, probe, s, i).probed;
      && |ps| <= |urls| - i
      && (i < |urls| ==> |ps| > 0)
      && (forall j :: 0 <= j < |ps| ==> ps[j] == urls[(start + i + j) % |urls|])
      && (forall j :: 0 <= j < |ps| - 1 ==> !probe(ps[j]).Healthy?)
    decreases |urls| - i
  {
    if i < |urls| {
      var k := (start + i) % |urls|;
      var url := urls[k];
      if !probe(url).Healthy? {
        var next := Establish(s, url, probe(url));
        ReconnectFromProbes(urls, start, probe, next, i + 1);
        var rest := ReconnectFrom(urls, start, probe, next, i + 1).probed;
        var ps := [url] + rest;
        forall j | 1 <= j < |ps|
          ensures ps[j] == urls[(start + i + j) % |urls|]
        {
          assert ps[j] == rest[j - 1];
          assert start + (i + 1) + (j - 1) == start + i + j;
        }
      }
    }
  }

  /** From attempt i on, the loop connects iff some remaining endpoint is healthy, and what it then publishes. */
  lemma {:induction false} ReconnectFromOutcome(urls: seq<Url>, start: nat, probe: Url -> Health, s: ConnState, i: nat)
    requires |urls| > 0 && i <= |urls| && !s.isConnected
    ensures var r := ReconnectFrom(urls, start, probe, s, i);
      var ps := r.probed;
      && (r.state.isConnected <==> exists j :: i <= j < |urls| && HealthyAt(urls, start, probe, j))
      && (r.state.isConnected ==>
            && |ps| > 0
            && probe(ps[|ps| - 1]).Healthy?
            && r.state.currentRpcIndex == (start + i + |ps| - 1) % |urls|
            && r.state.connection == Some(Handle(ps[|ps| - 1]))
            && r.state.currentRpcUrl == Some(ps[|ps| - 1])
            && r.state.error == None)
      && (!r.state.isConnected ==>
            && |ps| == |urls| - i
            && r.state.currentRpcIndex == s.currentRpcIndex
            && r.state.connection == s.connection
            && r.state.currentRpcUrl == s.currentRpcUrl
            && r.state.error == LastProbeError(s.error, ps, probe))
    decreases |urls| - i
  {
    var r := ReconnectFrom(urls, start, probe, s, i);
    if i < |urls| {
      var k := (start + i) % |urls|;
      var url := urls[k];
      var next := Establish(s, url, probe(url));
      if probe(url).Healthy? {
        assert HealthyAt(urls, start, probe, i);
      } else {
        ReconnectFromOutcome(urls, start, probe, next, i + 1);
        var rest := ReconnectFrom(urls, start, probe, next, i + 1);
        assert !HealthyAt(urls, start, probe, i);
        assert (exists j :: i <= j < |urls| && HealthyAt(urls, start, probe, j))
          <==> (exists j :: i + 1 <= j < |urls| && HealthyAt(urls, start, probe, j));
        if rest.state.isConnected {
          assert start + i + |r.probed| - 1 == start + (i + 1) + |rest.probed| - 1;
        } else {
          assert next.error == ErrorStep(s.error, url, probe(url));
          LastProbeErrorCons(s.error, url, rest.probed, probe);
        }
      }
    }
  }

  /** With no endpoint configured, `reconnect` reports it and probes nothing. */
  lemma ReconnectWithoutEndpoints(s: ConnState, probe: Url -> Health)
    ensures var r := ReconnectOutcome([], s, probe);
      && r.probed == []
      && r.state.error == Some(NoEndpoints)
      && !r.state.isConnected
      && r.state.connection == s.connection && r.state.currentRpcUrl == s.currentRpcUrl
      && r.state.currentRpcIndex == s.currentRpcIndex
  {
  }

  /** The i-th probe targets `urls[(currentRpcIndex + i) % n]`, and there are at most n probes. */
  lemma ReconnectFollowsRotation(urls: seq<Url>, s: ConnState, probe: Url -> Health)
    requires |urls| > 0
    ensures var ps := ReconnectOutcome(urls, s, probe).probed;
      && 0 < |ps| <= |urls|
      && forall i :: 0 <= i < |ps| ==> ps[i] == urls[(s.currentRpcIndex + i) % |urls|]
  {
    ReconnectFromProbes(urls, s.currentRpcIndex, probe, s.(error := None, isConnected := false), 0);
  }

  /** The position of the endpoint tried at attempt `i` of a rotation starting at `start`. */
  function Slot(urls: seq<Url>, start: nat, i: nat): (k: nat)
    requires |urls| > 0
    ensures k < |urls|
  {
    (start + i) % |urls|
  }

  /** No endpoint position is probed twice in one `reconnect`. */
  lemma ReconnectProbesEachPositionOnce(urls: seq<Url>, s: ConnState, probe: Url -> Health)
    requires |urls| > 0
    ensures var ps := ReconnectOutcome(urls, s, probe).probed;
      forall i, j :: 0 <= i < j < |ps| ==> Slot(urls, s.currentRpcIndex, i) != Slot(urls, s.currentRpcIndex, j)
  {
    ReconnectFollowsRotation(urls, s, probe);
    var ps := ReconnectOutcome(urls, s, probe).probed;
    forall i, j | 0 <= i < j < |ps|
      ensures Slot(urls, s.currentRpcIndex, i) != Slot(urls, s.currentRpcIndex, j)
    {
      DistinctResidues(s.currentRpcIndex + i, j - i, |urls|);
      assert s.currentRpcIndex + i + (j - i) == s.currentRpcIndex + j;
    }
  }

  /** Two numbers less than n apart leave different remainders modulo n. */
  lemma DistinctResidues(a: nat, d: nat, n: nat)
    requires 0 < d < n
    ensures (a + d) % n != a % n
  {
    var r1: int, r2: int := a % n, (a + d) % n;
    var k: int := (a + d) / n - a / n;
    assert a == (a / n) * n + r1;
    assert a + d == ((a + d) / n) * n + r2;
    assert d + r1 - r2 == k * n;
    if k <= 0 {
      MultipleBounds(k, n);
      assert r2 > r1;
    } else {
      MultipleBounds(k, n);
      assert r2 < r1;
    }
  }

  /** A non-positive multiple of n is at most 0; a positive one is at least n. */
  lemma {:induction false} MultipleBounds(k: int, n: nat)
    ensures k <= 0 ==> k * n <= 0
    ensures k >= 1 ==> k * n >= n
    decreases if k < 0 then -k else k
  {
    if k > 1 {
      MultipleBounds(k - 1, n);
      assert k * n == (k - 1) * n + n;
    } else if k < 0 {
      MultipleBounds(k + 1, n);
      assert k * n == (k + 1) * n - n;
    }
  }

  /**
   * Probing stops at the first healthy endpoint: every probe but the last failed, and
   * `reconnect` connects iff some configured endpoint is healthy.
   */
  lemma ReconnectStopsAtFirstHealthy(urls: seq<Url>, s: ConnState, probe: Url -> Health)
    requires |urls| > 0
    ensures var r := ReconnectOutcome(urls, s, probe);
      && (forall i :: 0 <= i < |r.probed| - 1 ==> !probe(r.probed[i]).Healthy?)
      && (r.state.isConnected <==> exists j :: 0 <= j < |urls| && HealthyAt(urls, s.currentRpcIndex, probe, j))
      && (r.state.isConnected ==> probe(r.probed[|r.probed| - 1]).Healthy?)
  {
    var cleared := s.(error := None, isConnected := false);
    ReconnectFromProbes(urls, s.currentRpcIndex, probe, cleared, 0);
    ReconnectFromOutcome(urls, s.currentRpcIndex, probe, cleared, 0);
  }

  /**
   * On success the new index is the first healthy position of the rotation, within [0, n),
   * and that endpoint is published.
   */
  lemma ReconnectSuccess(urls: seq<Url>, s: ConnState, probe: Url -> Health)
    requires |urls| > 0
    ensures var r := ReconnectOutcome(urls, s, probe);
      var idx := r.state.currentRpcIndex;
      r.state.isConnected ==>
        && idx < |urls|
        && idx == (s.currentRpcIndex + |r.probed| - 1) % |urls|
        && urls[idx] == r.probed[|r.probed| - 1]
        && probe(urls[idx]).Healthy?
        && (forall j :: 0 <= j < |r.probed| - 1 ==> !HealthyAt(urls, s.currentRpcIndex, probe, j))
        && r.state.connection == Some(Handle(urls[idx]))
        && r.state.currentRpcUrl == Some(urls[idx])
        && r.state.error == None
  {
    var cleared := s.(error := None, isConnected := false);
    ReconnectFromProbes(urls, s.currentRpcIndex, probe, cleared, 0);
    ReconnectFromOutcome(urls, s.currentRpcIndex, probe, cleared, 0);
    var ps := ReconnectFrom(urls, s.currentRpcIndex, probe, cleared, 0).probed;
    forall j | 0 <= j < |ps| - 1
      ensures !HealthyAt(urls, s.currentRpcIndex, probe, j)
    {
      assert ps[j] == urls[(s.currentRpcIndex + j) % |urls|];
    }
  }

  /**
   * When every probe fails, all n endpoints were probed, the hook ends disconnected, and the
   * index, URL and previously published connection are left as they were; the error is that
   * of the last probe that threw.
   */
  lemma ReconnectTotalFailure(urls: seq<Url>, s: ConnState, probe: Url -> Health)
    requires |urls| > 0
    requires forall j :: 0 <= j < |urls| ==> !probe(urls[j]).Healthy?
    ensures var r := ReconnectOutcome(urls, s, probe);
      && !r.state.isConnected
      && |r.probed| == |urls|
      && r.state.currentRpcIndex == s.currentRpcIndex
      && r.state.connection == s.connection
      && r.state.currentRpcUrl == s.currentRpcUrl
      && r.state.error == LastProbeError(None, r.probed, probe)
  {
    var cleared := s.(error := None, isConnected := false);
    ReconnectFromOutcome(urls, s.currentRpcIndex, probe, cleared, 0);
    forall j | 0 <= j < |urls|
      ensures !HealthyAt(urls, s.currentRpcIndex, probe, j)
    {
      var k := (s.currentRpcIndex + j) % |urls|;
      assert !probe(urls[k]).Healthy?;
    }
  }

  /** The state of `useSolanaConnection`, with the endpoint list it was configured with. */
  class ConnectionManager {
    const urls: seq<Url>
    var connection: Option<Handle>
    var currentRpcUrl: Option<Url>
    var isConnected: bool
    var error: Option<ConnError>
    var currentRpcIndex: nat
    /** Every endpoint handed to the health query so far, in order. */
    ghost var probed: seq<Url>

    function State(): ConnState
      reads this
    {
      ConnState(connection, currentRpcUrl, isConnected, error, currentRpcIndex)
    }

    constructor (urls: seq<Url>)
      ensures this.urls == urls && probed == []
      ensures State() == ConnState(None, None, false, None, 0)
    {
      this.urls := urls;
      connection, currentRpcUrl, isConnected, error, currentRpcIndex := None, None, false, None, 0;
      probed := [];
    }

    /** `establishConnection(url)`: probes `url` and publishes it only when it answers `'ok'`. */
    method EstablishConnection(url: Url, probe: Url -> Health) returns (ok: bool)
      modifies this
      ensures ok <==> probe(url).Healthy?
      ensures State() == Establish(old(State()), url, probe(url))
      ensures probed == old(probed) + [url]
    {
      probed := probed + [url];
      match probe(url)
      case Healthy =>
        connection := Some(Handle(url));
        currentRpcUrl := Some(url);
        isConnected := true;
        error := None;
        ok := true;
      case Unhealthy(_) =>
        ok := false;
      case Threw(m) =>
        error := Some(ProbeFailed(url, m));
        isConnected := false;
        ok := false;
    }

    /** `setConnection(url)`: forces `url`, marks the hook disconnected, then probes it. */
    method SetConnection(url: Url, probe: Url -> Health)
      modifies this
      ensures State() == Select(old(State()), url, probe(url))
      ensures probed == old(probed) + [url]
    {
      currentRpcUrl := Some(url);
      connection := Some(Handle(url));
      isConnected := false;
      var _ := EstablishConnection(url, probe);
    }

    /** `reconnect()`: walks the endpoint list in rotation from `currentRpcIndex` until one is healthy. */
    method Reconnect(probe: Url -> Health)
      modifies this
      ensures State() == ReconnectOutcome(urls, old(State()), probe).state
      ensures probed == old(probed) + ReconnectOutcome(urls, old(State()), probe).probed
    {
      error := None;
      isConnected := false;
      var connected := false;
      if |urls| == 0 {
        error := Some(NoEndpoints);
        return;
      }
      var start := currentRpcIndex;
      ghost var goal := ReconnectFrom(urls, start, probe, State(), 0);
      ghost var before := probed;
      for i := 0 to |urls|
        invariant !connected && currentRpcIndex == start
        invariant ReconnectFrom(urls, start, probe, State(), i).state == goal.state
        invariant before + goal.probed == probed + ReconnectFrom(urls, start, probe, State(), i).probed
      {
        var k := (start + i) % |urls|;
        var url := urls[k];
        ghost var pre := State();
        ghost var probedBefore := probed;
        connected := EstablishConnection(url, probe);
        if connected {
          currentRpcIndex := k;
          assert State() == ReconnectFrom(urls, start, probe, pre, i).state;
          assert probed == probedBefore + ReconnectFrom(urls, start, probe, pre, i).probed;
          break;
        }
        assert before + goal.probed == probed + ReconnectFrom(urls, start, probe, State(), i + 1).probed;
      }
    }
  }
}

=== FILE: swap_form.dfy ===
/**
 * The swap form (gswap/src/components/SwapForm.tsx): the default token choice, the two
 * pickers that clear each other, the quote effect and its guard, `handleSwap` and the
 * swap button. `parseFloat`, the conversion to base units, the service and the wallet's
 * `sendTransaction` are oracles; each effect and handler is one sequential step.
 */
module SwapForm {
  import opened Wrappers
  import opened Solana
  import opened Tokens
  import opened JupiterSwap

  // ---------------------------------------------------------------------------
  // Default tokens
  // ---------------------------------------------------------------------------

  predicate IsNativeSol(t: Token) {
    t.symbol == "SOL" && t.isNative
  }

  predicate IsUsdc(t: Token) {
    t.symbol == "USDC"
  }

  /** `t.address !== fromToken?.address`: every address differs from that of a missing token. */
  predicate DiffersFrom(t: Token, from: Option<Token>) {
    from.None? || t.address != from.value.address
  }

  function DiffersFromFn(from: Option<Token>): Token -> bool {
    t => DiffersFrom(t, from)
  }

  /** The default from-token: the first native SOL entry, else the first entry. */
  function DefaultFrom(tokens: seq<Token>): (r: Token)
    requires |tokens| > 0
    ensures r in tokens
    ensures || (exists i :: IsFirst(tokens, IsNativeSol, i) && r == tokens[i])
            || ((forall t :: t in tokens ==> !IsNativeSol(t)) && r == tokens[0])
  {
    match FindIndex(tokens, IsNativeSol)
    case Some(i) => tokens[i]
    case None => tokens[0]
  }

  /**
   * The default to-token as the effect computes it: the first USDC entry, else the first
   * entry whose address differs from `from`, else the first entry. The effect passes the
   * from-token of the render it runs in, which is still empty on the first run.
   */
  function DefaultToAsWritten(tokens: seq<Token>, from: Option<Token>): (r: Token)
    requires |tokens| > 0
    ensures r in tokens
    ensures || (exists i :: IsFirst(tokens, IsUsdc, i) && r == tokens[i])
            || ((forall t :: t in tokens ==> !IsUsdc(t))
                && exists i :: IsFirst(tokens, DiffersFromFn(from), i) && r == tokens[i])
            || ((forall t :: t in tokens ==> !IsUsdc(t) && !DiffersFrom(t, from)) && r == tokens[0])
  {
    match FindIndex(tokens, IsUsdc)
    case Some(i) => tokens[i]
    case None =>
      match FindIndex(tokens, DiffersFromFn(from))
      case Some(i) => tokens[i]
      case None => tokens[0]
  }

  /** The from/to selection of the form. */
  datatype Selection = Selection(from: Option<Token>, to: Option<Token>)

  /** The default-token effect: with a non-empty list, fill the empty slots, and only those. */
  function DefaultsAsWritten(tokens: seq<Token>, sel: Selection): (r: Selection)
    ensures |tokens| == 0 ==> r == sel
    ensures sel.from.Some? ==> r.from == sel.from
    ensures sel.to.Some? ==> r.to == sel.to
    ensures |tokens| > 0 ==> r.from.Some? && r.to.Some?
    ensures |tokens| > 0 && sel.from.None? ==> r.from == Some(DefaultFrom(tokens))
    ensures |tokens| > 0 && sel.to.None? ==> r.to == Some(DefaultToAsWritten(tokens, sel.from))
  {
    if |tokens| == 0 then sel
    else
      Selection(
        if sel.from.None? then Some(DefaultFrom(tokens)) else sel.from,
        if sel.to.None? then Some(DefaultToAsWritten(tokens, sel.from)) else sel.to)
  }

  /**
   * On the first run, with no native SOL and no USDC in the list, both defaults are the
   * first entry: the form starts with the same token on both sides.
   */
  lemma DefaultsCoincide(tokens: seq<Token>)
    requires |tokens| > 0
    requires forall t :: t in tokens ==> !IsNativeSol(t) && !IsUsdc(t)
    ensures DefaultsAsWritten(tokens, Selection(None, None)) == Selection(Some(tokens[0]), Some(tokens[0]))
  {
    assert IsFirst(tokens, DiffersFromFn(None), 0);
  }

  /**
   * The intended default to-token: the first USDC entry whose address differs from `from`,
   * else the first entry whose address differs, else the first entry.
   */
  function DefaultTo(tokens: seq<Token>, from: Option<Token>): (r: Token)
    requires |tokens| > 0
    ensures r in tokens
    ensures (exists t :: t in tokens && DiffersFrom(t, from)) ==> DiffersFrom(r, from)
    ensures (exists t :: t in tokens && IsUsdc(t) && DiffersFrom(t, from)) ==> IsUsdc(r)
  {
    match Find(tokens, t => IsUsdc(t) && DiffersFrom(t, from))
    case Some(u) => u
    case None =>
      match Find(tokens, DiffersFromFn(from))
      case Some(t) => t
      case None => tokens[0]
  }

  /** The default-token effect with the to-token chosen against the from-token just chosen. */
  function Defaults(tokens: seq<Token>, sel: Selection): (r: Selection)
    ensures |tokens| == 0 ==> r == sel
    ensures sel.from.Some? ==> r.from == sel.from
    ensures sel.to.Some? ==> r.to == sel.to
    ensures |tokens| > 0 ==> r.from.Some? && r.to.Some?
    ensures |tokens| > 0 && sel.to.None? && (exists t :: t in tokens && t.address != r.from.value.address)
        ==> r.to.value.address != r.from.value.address
  {
    if |tokens| == 0 then sel
    else
      var from := if sel.from.None? then Some(DefaultFrom(tokens)) else sel.from;
      Selection(from, if sel.to.None? then Some(DefaultTo(tokens, from)) else sel.to)
  }

  /** With two distinct addresses in the list, the intended defaults never pick one token twice. */
  lemma DefaultsDiffer(tokens: seq<Token>, a: Token, b: Token)
    requires a in tokens && b in tokens && a.address != b.address
    ensures var r := Defaults(tokens, Selection(None, None));
      r.from.value.address != r.to.value.address
  {
    var from := DefaultFrom(tokens);
    if a.address != from.address {
      assert a in tokens && DiffersFrom(a, Some(from));
    } else {
      assert b in tokens && DiffersFrom(b, Some(from));
    }
  }

  // ---------------------------------------------------------------------------
  // The pickers
  // ---------------------------------------------------------------------------

  /** `tokens.filter(t => t !== other)`: a picker lists every token except the other side's. */
  function PickerChoices(tokens: seq<Token>, other: Option<Token>): (r: seq<Token>)
    ensures forall t :: t in r <==> t in tokens && other != Some(t)
    ensures |r| <= |tokens|
    decreases |tokens|
  {
    if |tokens| == 0 then []
    else
      var rest := PickerChoices(tokens[1..], other);
      if other == Some(tokens[0]) then rest else [tokens[0]] + rest
  }

  /** The picker keeps the list order. */
  lemma {:induction false} PickerChoicesInOrder(tokens: seq<Token>, other: Option<Token>)
    ensures Subsequence(PickerChoices(tokens, other), tokens)
    decreases |tokens|
  {
    if |tokens| > 0 {
      PickerChoicesInOrder(tokens[1..], other);
      if other == Some(tokens[0]) {
        SubsequenceOfTail(PickerChoices(tokens[1..], other), tokens);
      }
    }
  }

  /** With nothing selected on the other side, a picker offers the whole list. */
  lemma {:induction false} PickerChoicesAll(tokens: seq<Token>)
    ensures PickerChoices(tokens, None) == tokens
    decreases |tokens|
  {
    if |tokens| > 0 {
      PickerChoicesAll(tokens[1..]);
      assert [tokens[0]] + tokens[1..] == tokens;
    }
  }

  // ---------------------------------------------------------------------------
  // Guards
  // ---------------------------------------------------------------------------

  /** The quote effect's condition: both tokens, a non-empty amount and `parseFloat(amount) > 0`. */
  predicate QuoteInputsReady(from: Option<Token>, to: Option<Token>, amount: string, parse: string -> Option<real>)
    ensures QuoteInputsReady(from, to, amount, parse) ==> !NotPositive(amount, parse)
  {
    from.Some? && to.Some? && amount != "" && parse(amount).Some? && parse(amount).value > 0.0
  }

  /**
   * `parseFloat(amount) <= 0`, which `handleSwap` and the button test; `None` stands for
   * `NaN`, for which the comparison is false.
   */
  predicate NotPositive(amount: string, parse: string -> Option<real>) {
    parse(amount).Some? && parse(amount).value <= 0.0
  }

  /** `handleSwap`'s second guard: a token, the amount or the quote is missing, or the amount is not positive. */
  predicate SwapInputsIncomplete(from: Option<Token>, to: Option<Token>, amount: string,
                                 quote: Option<QuoteData>, parse: string -> Option<real>) {
    from.None? || to.None? || amount == "" || NotPositive(amount, parse) || quote.None?
  }

  /** The `disabled` expression of the swap button, operand by operand. */
  predicate SwapButtonDisabled(connected: bool, isSwapLoading: bool, from: Option<Token>, to: Option<Token>,
                               amount: string, quote: Option<QuoteData>, parse: string -> Option<real>)
    ensures !SwapButtonDisabled(connected, isSwapLoading, from, to, amount, quote, parse)
        ==> connected && !SwapInputsIncomplete(from, to, amount, quote, parse)
  {
    !connected || isSwapLoading || from.None? || to.None? || amount == "" || NotPositive(amount, parse) || quote.None?
  }

  /**
   * The button is enabled exactly when the wallet is connected, no request is in flight and
   * `handleSwap`'s input guard would let the swap through.
   */
  lemma SwapButtonMatchesGuards(connected: bool, isSwapLoading: bool, from: Option<Token>, to: Option<Token>,
                                amount: string, quote: Option<QuoteData>, parse: string -> Option<real>)
    ensures !SwapButtonDisabled(connected, isSwapLoading, from, to, amount, quote, parse)
        <==> connected && !isSwapLoading && !SwapInputsIncomplete(from, to, amount, quote, parse)
  {
  }

  /** A positive amount passes the swap guard's amount test as well as the quote guard's. */
  lemma QuoteReadyAmountPassesSwapGuard(from: Option<Token>, to: Option<Token>, amount: string,
                                        quote: Option<QuoteData>, parse: string -> Option<real>)
    requires QuoteInputsReady(from, to, amount, parse) && quote.Some?
    ensures !SwapInputsIncomplete(from, to, amount, quote, parse)
  {
  }

  // ---------------------------------------------------------------------------
  // handleSwap
  // ---------------------------------------------------------------------------

  /** How a click on the swap button ends. */
  datatype SwapResult =
    | WalletNotConnected              // first guard: no connected wallet or no key
    | IncompleteInput                 // second guard: missing token, amount or quote
    | NoTransaction                   // `getSwapTransaction` returned null
    | TransactionError(error: ApiError) // `getSwapTransaction` threw
    | SendFailed(message: string)     // the wallet refused or failed to send
    | Submitted(signature: string)    // the wallet sent the transaction

  /**
   * What `handleSwap` ends with once `getSwapTransaction` has answered `tx`; `send` is the
   * wallet's `sendTransaction`, giving the signature or the message it threw.
   */
  function AfterSwapTransaction(tx: SwapTx, send: Transaction -> Result<string, string>): (r: SwapResult)
    ensures r.Submitted? <==> tx.Built? && send(tx.tx).Ok?
    ensures r.Submitted? ==> r.signature == send(tx.tx).value
    ensures tx.Failed? ==> r == TransactionError(tx.error)
    ensures tx.NoWallet? ==> r == NoTransaction
  {
    match tx
    case NoWallet => NoTransaction
    case Failed(e) => TransactionError(e)
    case Built(t) =>
      match send(t)
      case Ok(signature) => Submitted(signature)
      case Err(message) => SendFailed(message)
  }

  /** The form's state as React holds it. */
  class Form {
    var fromToken: Option<Token>
    var toToken: Option<Token>
    var amount: string
    var quoteResponse: Option<QuoteData>
    /** The slippage input, in percent; nothing reads it when quoting. */
    var slippage: real
    /** The transactions handed to the wallet. */
    ghost var submitted: seq<Transaction>
    const jupiter: JupiterClient

    constructor (jupiter: JupiterClient)
      ensures this.jupiter == jupiter
      ensures fromToken == None && toToken == None && amount == "" && quoteResponse == None
      ensures slippage == 0.5 && submitted == []
    {
      this.jupiter := jupiter;
      fromToken := None;
      toToken := None;
      amount := "";
      quoteResponse := None;
      slippage := 0.5;
      submitted := [];
    }

    /** The default-token effect, run once for the current list and selection. */
    method ApplyDefaults(tokens: seq<Token>)
      modifies this
      ensures Selection(fromToken, toToken) == DefaultsAsWritten(tokens, old(Selection(fromToken, toToken)))
      ensures amount == old(amount) && quoteResponse == old(quoteResponse) && slippage == old(slippage)
      ensures submitted == old(submitted)
    {
      if |tokens| > 0 {
        // both branches read the selection of the render the effect runs in
        var from, to := fromToken, toToken;
        if from.None? {
          fromToken := Some(DefaultFrom(tokens));
        }
        if to.None? {
          toToken := Some(DefaultToAsWritten(tokens, from));
        }
      }
    }

    /** The from-picker's `onSelect`: choosing the to-token moves it, clearing the to side. */
    method SelectFrom(token: Token)
      modifies this
      ensures fromToken == Some(token)
      ensures toToken == if old(toToken) == Some(token) then None else old(toToken)
      ensures fromToken != toToken
      ensures amount == old(amount) && quoteResponse == old(quoteResponse) && slippage == old(slippage)
      ensures submitted == old(submitted)
    {
      fromToken := Some(token);
      if toToken == Some(token) {
        toToken := None;
      }
    }

    /** The to-picker's `onSelect`: choosing the from-token moves it, clearing the from side. */
    method SelectTo(token: Token)
      modifies this
      ensures toToken == Some(token)
      ensures fromToken == if old(fromToken) == Some(token) then None else old(fromToken)
      ensures fromToken != toToken
      ensures amount == old(amount) && quoteResponse == old(quoteResponse) && slippage == old(slippage)
      ensures submitted == old(submitted)
    {
      toToken := Some(token);
      if fromToken == Some(token) {
        fromToken := None;
      }
    }

    /** The amount input. */
    method SetAmount(text: string)
      modifies this
      ensures amount == text
      ensures fromToken == old(fromToken) && toToken == old(toToken)
      ensures quoteResponse == old(quoteResponse) && slippage == old(slippage) && submitted == old(submitted)
    {
      amount := text;
    }

    /** The slippage input. */
    method SetSlippage(percent: real)
      modifies this
      ensures slippage == percent
      ensures fromToken == old(fromToken) && toToken == old(toToken) && amount == old(amount)
      ensures quoteResponse == old(quoteResponse) && submitted == old(submitted)
    {
      slippage := percent;
    }

    /**
     * The quote effect after its debounce: with complete inputs it asks for a quote at the
     * default slippage (the slippage field is not passed) and keeps it, or clears it when
     * the request throws; otherwise it clears the quote without a request.
     * `toBaseUnits(amount, decimals)` is `parseFloat(amount) * 10 ** decimals`.
     */
    method FetchQuote(parse: string -> Option<real>, toBaseUnits: (string, nat) -> nat,
                      fetch: string -> Http<QuoteData>)
      modifies this, jupiter
      ensures fromToken == old(fromToken) && toToken == old(toToken) && amount == old(amount)
      ensures slippage == old(slippage) && submitted == old(submitted)
      ensures !QuoteInputsReady(fromToken, toToken, amount, parse) ==>
        quoteResponse == None && jupiter.sent == old(jupiter.sent) && jupiter.isLoading == old(jupiter.isLoading)
      ensures QuoteInputsReady(fromToken, toToken, amount, parse) ==>
        var url := QuoteUrl(QuoteQuery(fromToken.value.address, toToken.value.address,
                                       toBaseUnits(amount, fromToken.value.decimals), DefaultSlippageBps));
        && jupiter.sent == old(jupiter.sent) + [QuoteGet(url)]
        && !jupiter.isLoading
        && quoteResponse == (match QuoteOutcome(fetch(url)) case Ok(d) => Some(d) case Err(_) => None)
      ensures quoteResponse.Some? ==> QuoteInputsReady(fromToken, toToken, amount, parse) && HasRoutes(quoteResponse.value)
    {
      if QuoteInputsReady(fromToken, toToken, amount, parse) {
        var quote := jupiter.GetQuote(fromToken.value.address, toToken.value.address,
                                      toBaseUnits(amount, fromToken.value.decimals), fetch);
        quoteResponse := if quote.Ok? then Some(quote.value) else None;
      } else {
        quoteResponse := None;
      }
    }

    /**
     * `handleSwap`: refuses without a connected wallet, then without complete inputs;
     * otherwise asks for the swap transaction and hands it to the wallet.
     */
    method HandleSwap(connected: bool, publicKey: Option<PublicKey>, parse: string -> Option<real>,
                      swapFetch: SwapRequest -> Http<SwapJson>, deserialize: string -> Option<Transaction>,
                      send: Transaction -> Result<string, string>)
      returns (result: SwapResult)
      modifies this, jupiter
      ensures fromToken == old(fromToken) && toToken == old(toToken) && amount == old(amount)
      ensures quoteResponse == old(quoteResponse) && slippage == old(slippage)
      ensures !connected || publicKey.None? ==>
        result == WalletNotConnected && jupiter.sent == old(jupiter.sent) && submitted == old(submitted)
      ensures connected && publicKey.Some? && SwapInputsIncomplete(fromToken, toToken, amount, quoteResponse, parse) ==>
        result == IncompleteInput && jupiter.sent == old(jupiter.sent) && submitted == old(submitted)
      ensures !SwapButtonDisabled(connected, old(jupiter.isLoading), fromToken, toToken, amount, quoteResponse, parse)
              && publicKey.Some? ==>
        |jupiter.sent| == |old(jupiter.sent)| + 1
        && jupiter.sent[|old(jupiter.sent)|] == SwapPost(SwapRequest(quoteResponse.value, publicKey.value.base58, true))
      ensures connected && publicKey.Some? && !SwapInputsIncomplete(fromToken, toToken, amount, quoteResponse, parse) ==>
        var body := SwapRequest(quoteResponse.value, publicKey.value.base58, true);
        var tx := SwapOutcome(swapFetch(body), deserialize);
        && jupiter.sent == old(jupiter.sent) + [SwapPost(body)]
        && submitted == old(submitted) + (if tx.Built? then [tx.tx] else [])
        && result == AfterSwapTransaction(tx, send)
      ensures !connected || publicKey.None? || SwapInputsIncomplete(fromToken, toToken, amount, quoteResponse, parse) ==>
        jupiter.isLoading == old(jupiter.isLoading)
      ensures connected && publicKey.Some? && !SwapInputsIncomplete(fromToken, toToken, amount, quoteResponse, parse) ==>
        !jupiter.isLoading
    {
      if !connected || publicKey.None? {
        return WalletNotConnected;
      }
      if SwapInputsIncomplete(fromToken, toToken, amount, quoteResponse, parse) {
        return IncompleteInput;
      }
      var tx := jupiter.GetSwapTransaction(quoteResponse.value, publicKey, swapFetch, deserialize);
      match tx {
        case NoWallet =>
          result := NoTransaction;
        case Failed(e) =>
          result := TransactionError(e);
        case Built(t) =>
          submitted := submitted + [t];
          var sent := send(t);
          result := if sent.Ok? then Submitted(sent.value) else SendFailed(sent.error);
      }
    }
  }
}

=== FILE: text.dfy ===
/**
 * The few string operations the hooks rely on: `toLowerCase` restricted to ASCII,
 * `includes`, splitting a URL at its separators, and decimal rendering of a
 * non-negative integer (what a template literal does with an integral number).
 */
module Text {
  import opened Wrappers

  // ---------------------------------------------------------------------------
  // Lower-casing (ASCII letters only)
  // ---------------------------------------------------------------------------

  predicate IsUpper(c: char) {
    'A' <= c <= 'Z'
  }

  function LowerChar(c: char): char {
    if IsUpper(c) then (c as int + 32) as char else c
  }

  /** `s.toLowerCase()` over ASCII: every upper-case letter becomes its lower-case form. */
  function ToLower(s: string): (r: string)
    ensures |r| == |s|
    ensures forall i :: 0 <= i < |r| ==> !IsUpper(r[i])
    ensures forall i :: 0 <= i < |s| && !IsUpper(s[i]) ==> r[i] == s[i]
    ensures forall i :: 0 <= i < |s| && IsUpper(s[i]) ==> r[i] as int == s[i] as int + 32
  {
    seq(|s|, i requires 0 <= i < |s| => LowerChar(s[i]))
  }

  /** Lower-casing twice is lower-casing once. */
  lemma ToLowerIdempotent(s: string)
    ensures ToLower(ToLower(s)) == ToLower(s)
  {
    var once := ToLower(s);
    forall i | 0 <= i < |once|
      ensures ToLower(once)[i] == once[i]
    {
      assert !IsUpper(once[i]);
    }
  }

  // ---------------------------------------------------------------------------
  // Substring search
  // ---------------------------------------------------------------------------

  /** `s.includes(sub)`: `sub` is a prefix of some suffix of `s`. */
  predicate Contains(s: string, sub: string)
    ensures Contains(s, sub) ==> |sub| <= |s|
    decreases |s|
  {
    sub <= s || (|s| > 0 && Contains(s[1..], sub))
  }

  /** `sub` sits in `s` starting at index `i`. */
  predicate OccursAt(s: string, sub: string, i: int) {
    0 <= i && i + |sub| <= |s| && s[i..i + |sub|] == sub
  }

  /** The recursive search agrees with the positional definition of an occurrence. */
  lemma {:induction false} ContainsIffOccurs(s: string, sub: string)
    ensures Contains(s, sub) <==> exists i :: OccursAt(s, sub, i)
    decreases |s|
  {
    if sub <= s {
      assert OccursAt(s, sub, 0);
    } else if |s| > 0 {
      ContainsIffOccurs(s[1..], sub);
      if Contains(s[1..], sub) {
        var i :| OccursAt(s[1..], sub, i);
        assert s[i + 1..i + 1 + |sub|] == s[1..][i..i + |sub|];
        assert OccursAt(s, sub, i + 1);
      }
      if i :| OccursAt(s, sub, i) {
        assert i != 0;
        assert s[1..][i - 1..i - 1 + |sub|] == s[i..i + |sub|];
        assert OccursAt(s[1..], sub, i - 1);
      }
    } else {
      assert forall i :: !OccursAt(s, sub, i);
    }
  }

  /** The empty search term occurs in every string. */
  lemma ContainsEmpty(s: string)
    ensures Contains(s, "")
  {
  }

  // ---------------------------------------------------------------------------
  // Splitting and joining at a separator character
  // ---------------------------------------------------------------------------

  /** All pieces of `s` between occurrences of `sep` (`s.split(sep)`). */
  function Split(s: string, sep: char): (r: seq<string>)
    ensures |r| > 0
    decreases |s|
  {
    if |s| == 0 then [""]
    else
      var rest := Split(s[1..], sep);
      if s[0] == sep then [""] + rest else [[s[0]] + rest[0]] + rest[1..]
  }

  /** `parts.join(sep)`. */
  function Join(parts: seq<string>, sep: char): string
    requires |parts| > 0
    decreases |parts|
  {
    if |parts| == 1 then parts[0] else parts[0] + [sep] + Join(parts[1..], sep)
  }

  /** A piece free of the separator stays glued to the first piece of what follows it. */
  lemma {:induction false} SplitPrepend(x: string, y: string, sep: char)
    requires sep !in x
    ensures Split(x + y, sep) == [x + Split(y, sep)[0]] + Split(y, sep)[1..]
    decreases |x|
  {
    if |x| == 0 {
      assert x + y == y;
      assert x + Split(y, sep)[0] == Split(y, sep)[0];
    } else {
      assert (x + y)[1..] == x[1..] + y;
      assert (x + y)[0] == x[0];
      SplitPrepend(x[1..], y, sep);
      assert [x[0]] + (x[1..] + Split(y, sep)[0]) == x + Split(y, sep)[0];
    }
  }

  /** Splitting undoes joining when no part contains the separator. */
  lemma {:induction false} SplitJoin(parts: seq<string>, sep: char)
    requires |parts| > 0
    requires forall i :: 0 <= i < |parts| ==> sep !in parts[i]
    ensures Split(Join(parts, sep), sep) == parts
    decreases |parts|
  {
    if |parts| == 1 {
      SplitPrepend(parts[0], "", sep);
      assert parts[0] + "" == parts[0];
    } else {
      var tail := Join(parts[1..], sep);
      SplitJoin(parts[1..], sep);
      assert Split([sep] + tail, sep) == [""] + Split(tail, sep);
      SplitPrepend(parts[0], [sep] + tail, sep);
      assert parts[0] + [sep] + tail == parts[0] + ([sep] + tail);
      assert parts[0] + "" == parts[0];
      assert [parts[0]] + parts[1..] == parts;
    }
  }

  /** `s` cut at its first `sep`: the text before it and the text after it. */
  function SplitOnce(s: string, sep: char): (r: Option<(string, string)>)
    ensures r.Some? ==> r.value.0 + [sep] + r.value.1 == s && sep !in r.value.0
    ensures r.None? <==> sep !in s
    decreases |s|
  {
    if |s| == 0 then None
    else if s[0] == sep then Some(([], s[1..]))
    else
      match SplitOnce(s[1..], sep)
      case None => None
      case Some((before, after)) => Some(([s[0]] + before, after))
  }

  /** Cutting at the first separator recovers a separator-free head and the rest. */
  lemma SplitOnceAt(x: string, y: string, sep: char)
    requires sep !in x
    ensures SplitOnce(x + [sep] + y, sep) == Some((x, y))
  {
    var s := x + [sep] + y;
    assert s[|x|] == sep;
    var r := SplitOnce(s, sep);
    var a := r.value.0;
    assert forall i :: 0 <= i < |x| ==> s[i] == x[i] != sep;
    assert forall i :: 0 <= i < |a| ==> s[i] == a[i] != sep;
    assert s[|a|] == sep;
    assert |a| == |x|;
    assert a == s[..|a|] == x;
    assert r.value.1 == s[|a| + 1..] == y;
  }

  // ---------------------------------------------------------------------------
  // Decimal numerals
  // ---------------------------------------------------------------------------

  predicate IsDigit(c: char) {
    '0' <= c <= '9'
  }

  predicate AllDigits(s: string) {
    forall i :: 0 <= i < |s| ==> IsDigit(s[i])
  }

  function DigitChar(d: nat): char
    requires d < 10
  {
    (48 + d) as char
  }

  function DigitValue(c: char): nat
    requires IsDigit(c)
  {
    c as int - 48
  }

  /** The decimal numeral of `n`, without sign or leading zeros. */
  function NatToString(n: nat): (r: string)
    ensures |r| > 0 && AllDigits(r)
    decreases n
  {
    if n < 10 then [DigitChar(n)] else NatToString(n / 10) + [DigitChar(n % 10)]
  }

  /** The value of a string of decimal digits. */
  function DigitsValue(s: string): nat
    requires AllDigits(s)
    decreases |s|
  {
    if |s| == 0 then 0 else DigitsValue(s[..|s| - 1]) * 10 + DigitValue(s[|s| - 1])
  }

  /** Reads a non-empty decimal numeral; anything else is rejected. */
  function ParseNat(s: string): Option<nat> {
    if |s| > 0 && AllDigits(s) then Some(DigitsValue(s)) else None
  }

  lemma {:induction false} DigitsValueOfNatToString(n: nat)
    ensures DigitsValue(NatToString(n)) == n
    decreases n
  {
    var s := NatToString(n);
    if n < 10 {
      assert s[..|s| - 1] == [];
    } else {
      DigitsValueOfNatToString(n / 10);
      assert s[..|s| - 1] == NatToString(n / 10);
    }
  }

  /** Reading back a rendered numeral gives the number. */
  lemma ParseNatToString(n: nat)
    ensures ParseNat(NatToString(n)) == Some(n)
  {
    DigitsValueOfNatToString(n);
  }

  /** A numeral contains no character other than a digit. */
  lemma NumeralFreeOf(n: nat, c: char)
    requires !IsDigit(c)
    ensures c !in NatToString(n)
  {
    var s := NatToString(n);
    assert forall i :: 0 <= i < |s| ==> s[i] != c;
  }
}

=== FILE: token_balance.dfy ===
/**
 * The balance of one token in the connected wallet (gswap/src/hooks/useTokenBalance.ts).
 * The RPC calls, the parsing of a mint id into a public key and the associated-token-account
 * derivation are oracles; a balance is an exact rational or NaN.
 */
module TokenBalance {
  import opened Wrappers
  import opened Solana

  // ---------------------------------------------------------------------------
  // Base units
  // ---------------------------------------------------------------------------

  function Pow10(n: nat): (r: nat)
    ensures r >= 1
  {
    if n == 0 then 1 else 10 * Pow10(n - 1)
  }

  /** An amount in base units shown in whole tokens: `raw / 10 ** decimals`. */
  function DisplayAmount(raw: nat, decimals: nat): (r: real)
    ensures r >= 0.0
    ensures r * Pow10(decimals) as real == raw as real
    ensures r == 0.0 <==> raw == 0
  {
    raw as real / Pow10(decimals) as real
  }

  /** Lamports per SOL is `10 ** 9`. */
  const SolDecimals: nat := 9

  /** Scaling a whole number of tokens up to base units and back gives the number. */
  lemma DisplayWholeTokens(tokens: nat, decimals: nat)
    ensures DisplayAmount(tokens * Pow10(decimals), decimals) == tokens as real
  {
    var d := Pow10(decimals) as real;
    assert (tokens * Pow10(decimals)) as real == tokens as real * d;
  }

  // ---------------------------------------------------------------------------
  // The RPC node
  // ---------------------------------------------------------------------------

  /** A token account as `getAccount` returns it: the raw amount and the mint's public key. */
  datatype TokenAccount = TokenAccount(amount: nat, mint: PublicKey)

  /**
   * The reads the hook makes (and `getMint`, which the corrected fetch adds); each gives its
   * answer or the message it threw. `getAccountInfo` answers whether an account exists at
   * the address; `getMint` answers the decimals of a mint.
   */
  datatype Rpc = Rpc(
    getBalance: PublicKey -> Result<nat, string>,
    getAccountInfo: PublicKey -> Result<bool, string>,
    getAccount: PublicKey -> Result<TokenAccount, string>,
    getMint: PublicKey -> Result<nat, string>)

  /** A read sent to the node. */
  datatype RpcCall =
    | GetBalance(owner: PublicKey)
    | GetAccountInfo(account: PublicKey)
    | GetAccount(account: PublicKey)
    | GetMint(mint: PublicKey)

  /** Why a fetch failed: the mint id is not a public key, or a read threw. */
  datatype BalanceError = InvalidMint(mint: string) | RpcFailed(message: string)

  /** The JS number stored as the balance: a finite value or `NaN`. */
  datatype Number = Finite(value: real) | NaN

  /** The hook's three pieces of state. */
  datatype BalanceState = BalanceState(balance: Option<Number>, isLoading: bool, error: Option<BalanceError>)

  /** The state after a fetch, with the reads it made. */
  datatype Outcome = Outcome(state: BalanceState, calls: seq<RpcCall>)

  /** The configuration `fetchBalance` runs with. */
  datatype Inputs = Inputs(
    owner: Option<PublicKey>,
    rpc: Option<Rpc>,
    mint: Option<string>,
    parseKey: string -> Option<PublicKey>,
    ata: (PublicKey, PublicKey) -> PublicKey)

  /** `!publicKey || !connection || !tokenMintAddress`; the empty string is falsy too. */
  predicate MissingInputs(inp: Inputs) {
    inp.owner.None? || inp.rpc.None? || inp.mint.None? || inp.mint.value == ""
  }

  /** The mint ids the hook reads as the native asset. */
  predicate IsNativeMint(mint: string) {
    mint == WrappedSolMint || mint == "SOL"
  }

  /** A finished fetch: loading cleared, the balance set, and an error exactly when there is no balance. */
  function Settle(balance: Result<Number, BalanceError>, calls: seq<RpcCall>): (r: Outcome)
    ensures !r.state.isLoading && r.calls == calls
    ensures r.state.balance.Some? <==> r.state.error.None?
    ensures balance.Ok? ==> r.state.balance == Some(balance.value)
    ensures balance.Err? ==> r.state.error == Some(balance.error)
  {
    match balance
    case Ok(b) => Outcome(BalanceState(Some(b), false, None), calls)
    case Err(e) => Outcome(BalanceState(None, false, Some(e)), calls)
  }

  /** The native branch: the owner's lamports in SOL. */
  function NativeBalance(rpc: Rpc, owner: PublicKey): (r: Outcome)
    ensures !r.state.isLoading && r.calls == [GetBalance(owner)]
    ensures rpc.getBalance(owner).Ok? ==>
      r.state.balance == Some(Finite(DisplayAmount(rpc.getBalance(owner).value, SolDecimals))) && r.state.error == None
    ensures rpc.getBalance(owner).Err? ==> r.state == BalanceState(None, false, Some(RpcFailed(rpc.getBalance(owner).error)))
  {
    match rpc.getBalance(owner)
    case Ok(lamports) => Settle(Ok(Finite(DisplayAmount(lamports, SolDecimals))), [GetBalance(owner)])
    case Err(m) => Settle(Err(RpcFailed(m)), [GetBalance(owner)])
  }

  /**
   * The SPL branch as written: a missing associated account gives 0; an existing one gives
   * `Number(amount) / 10 ** tokenAccount.mint.decimals`, where `mint` is a public key without
   * a `decimals` field, so the divisor and the result are `NaN`.
   */
  function SplBalanceAsWritten(rpc: Rpc, account: PublicKey): (r: Outcome)
    ensures !r.state.isLoading && 1 <= |r.calls| <= 2 && r.calls[0] == GetAccountInfo(account)
    ensures r.state.balance.Some? <==> r.state.error.None?
    ensures rpc.getAccountInfo(account) == Ok(false) ==>
      r.state.balance == Some(Finite(0.0)) && r.calls == [GetAccountInfo(account)]
    ensures rpc.getAccountInfo(account) == Ok(true) && rpc.getAccount(account).Ok? ==>
      r.state.balance == Some(NaN) && r.calls == [GetAccountInfo(account), GetAccount(account)]
    ensures rpc.getAccountInfo(account).Err? ==> r.state.error == Some(RpcFailed(rpc.getAccountInfo(account).error))
  {
    match rpc.getAccountInfo(account)
    case Err(m) => Settle(Err(RpcFailed(m)), [GetAccountInfo(account)])
    case Ok(found) =>
      if !found then Settle(Ok(Finite(0.0)), [GetAccountInfo(account)])
      else
        match rpc.getAccount(account)
        case Ok(_) => Settle(Ok(NaN), [GetAccountInfo(account), GetAccount(account)])
        case Err(m) => Settle(Err(RpcFailed(m)), [GetAccountInfo(account), GetAccount(account)])
  }

  /**
   * The SPL branch with the decimals read from the account's mint: a missing associated
   * account gives 0; an existing one gives its amount in whole tokens.
   */
  function SplBalance(rpc: Rpc, account: PublicKey): (r: Outcome)
    ensures !r.state.isLoading && 1 <= |r.calls| <= 3 && r.calls[0] == GetAccountInfo(account)
    ensures r.state.balance.Some? <==> r.state.error.None?
    ensures r.state.balance != Some(NaN)
    ensures rpc.getAccountInfo(account) == Ok(false) ==>
      r.state.balance == Some(Finite(0.0)) && r.calls == [GetAccountInfo(account)]
    ensures rpc.getAccountInfo(account) == Ok(true) && rpc.getAccount(account).Ok?
            && rpc.getMint(rpc.getAccount(account).value.mint).Ok? ==>
      var t := rpc.getAccount(account).value;
      r.state.balance == Some(Finite(DisplayAmount(t.amount, rpc.getMint(t.mint).value)))
    ensures rpc.getAccountInfo(account).Err? ==> r.state.error == Some(RpcFailed(rpc.getAccountInfo(account).error))
  {
    match rpc.getAccountInfo(account)
    case Err(m) => Settle(Err(RpcFailed(m)), [GetAccountInfo(account)])
    case Ok(found) =>
      if !found then Settle(Ok(Finite(0.0)), [GetAccountInfo(account)])
      else
        match rpc.getAccount(account)
        case Err(m) => Settle(Err(RpcFailed(m)), [GetAccountInfo(account), GetAccount(account)])
        case Ok(t) =>
          var calls := [GetAccountInfo(account), GetAccount(account), GetMint(t.mint)];
          match rpc.getMint(t.mint)
          case Ok(decimals) => Settle(Ok(Finite(DisplayAmount(t.amount, decimals))), calls)
          case Err(m) => Settle(Err(RpcFailed(m)), calls)
  }

  /**
   * `fetchBalance` as written: with missing inputs the balance is cleared without a read;
   * otherwise the mint id is parsed first, then the native check picks the branch.
   */
  function ResolveAsWritten(inp: Inputs, prev: BalanceState): (r: Outcome)
    ensures MissingInputs(inp) ==> r == Outcome(BalanceState(None, false, prev.error), [])
    ensures !MissingInputs(inp) ==> !r.state.isLoading && (r.state.balance.Some? <==> r.state.error.None?)
    ensures !MissingInputs(inp) && inp.parseKey(inp.mint.value).None? ==>
      r == Outcome(BalanceState(None, false, Some(InvalidMint(inp.mint.value))), [])
    ensures !MissingInputs(inp) && inp.parseKey(inp.mint.value).Some? && IsNativeMint(inp.mint.value) ==>
      r == NativeBalance(inp.rpc.value, inp.owner.value)
    ensures !MissingInputs(inp) && inp.parseKey(inp.mint.value).Some? && !IsNativeMint(inp.mint.value) ==>
      r == SplBalanceAsWritten(inp.rpc.value, inp.ata(inp.parseKey(inp.mint.value).value, inp.owner.value))
  {
    if MissingInputs(inp) then Outcome(BalanceState(None, false, prev.error), [])
    else
      var mint := inp.mint.value;
      match inp.parseKey(mint)
      case None => Settle(Err(InvalidMint(mint)), [])
      case Some(mintKey) =>
        if IsNativeMint(mint) then NativeBalance(inp.rpc.value, inp.owner.value)
        else SplBalanceAsWritten(inp.rpc.value, inp.ata(mintKey, inp.owner.value))
  }

  /**
   * `fetchBalance` corrected: the native check comes ahead of the parse, so that `'SOL'`
   * reaches it, and an SPL balance is scaled by the decimals of its mint.
   */
  function Resolve(inp: Inputs, prev: BalanceState): (r: Outcome)
    ensures MissingInputs(inp) ==> r == Outcome(BalanceState(None, false, prev.error), [])
    ensures !MissingInputs(inp) ==> !r.state.isLoading && (r.state.balance.Some? <==> r.state.error.None?)
    ensures r.state.balance != Some(NaN)
    ensures !MissingInputs(inp) && IsNativeMint(inp.mint.value) ==> r == NativeBalance(inp.rpc.value, inp.owner.value)
    ensures !MissingInputs(inp) && !IsNativeMint(inp.mint.value) && inp.parseKey(inp.mint.value).None? ==>
      r == Outcome(BalanceState(None, false, Some(InvalidMint(inp.mint.value))), [])
    ensures !MissingInputs(inp) && !IsNativeMint(inp.mint.value) && inp.parseKey(inp.mint.value).Some? ==>
      r == SplBalance(inp.rpc.value, inp.ata(inp.parseKey(inp.mint.value).value, inp.owner.value))
  {
    if MissingInputs(inp) then Outcome(BalanceState(None, false, prev.error), [])
    else
      var mint := inp.mint.value;
      if IsNativeMint(mint) then NativeBalance(inp.rpc.value, inp.owner.value)
      else
        match inp.parseKey(mint)
        case None => Settle(Err(InvalidMint(mint)), [])
        case Some(mintKey) => SplBalance(inp.rpc.value, inp.ata(mintKey, inp.owner.value))
  }

  // ---------------------------------------------------------------------------
  // What the fetch promises
  // ---------------------------------------------------------------------------

  /**
   * The balances the hook promises, as written: the wrapped-SOL mint gives lamports / 10^9,
   * a mint without an associated account gives 0, and any thrown read gives no balance.
   */
  lemma BalancesAsWritten(inp: Inputs, prev: BalanceState)
    requires !MissingInputs(inp) && inp.parseKey(inp.mint.value).Some?
    ensures var r, rpc, owner := ResolveAsWritten(inp, prev), inp.rpc.value, inp.owner.value;
      var account := inp.ata(inp.parseKey(inp.mint.value).value, owner);
      && (inp.mint.value == WrappedSolMint && rpc.getBalance(owner).Ok? ==>
            r.state.balance == Some(Finite(DisplayAmount(rpc.getBalance(owner).value, SolDecimals)))
            && r.calls == [GetBalance(owner)])
      && (!IsNativeMint(inp.mint.value) && rpc.getAccountInfo(account) == Ok(false) ==>
            r.state.balance == Some(Finite(0.0)) && r.calls == [GetAccountInfo(account)])
      && (r.state.error.Some? ==> r.state.balance == None)
  {
  }

  /**
   * As written, an SPL mint whose associated account exists gets `NaN` as its balance,
   * with no error: the account record's `mint` is a public key, which has no decimals.
   */
  lemma SplBalanceIsNaN(inp: Inputs, prev: BalanceState)
    requires !MissingInputs(inp) && !IsNativeMint(inp.mint.value) && inp.parseKey(inp.mint.value).Some?
    requires var rpc, account := inp.rpc.value, inp.ata(inp.parseKey(inp.mint.value).value, inp.owner.value);
      rpc.getAccountInfo(account) == Ok(true) && rpc.getAccount(account).Ok?
    ensures ResolveAsWritten(inp, prev).state == BalanceState(Some(NaN), false, None)
  {
  }

  /**
   * Corrected, an SPL mint whose associated account exists gets the account's amount in
   * whole tokens of its mint, and the corrected fetch never yields `NaN`.
   */
  lemma SplBalanceScalesByMintDecimals(inp: Inputs, prev: BalanceState)
    requires !MissingInputs(inp) && !IsNativeMint(inp.mint.value) && inp.parseKey(inp.mint.value).Some?
    requires var rpc, account := inp.rpc.value, inp.ata(inp.parseKey(inp.mint.value).value, inp.owner.value);
      && rpc.getAccountInfo(account) == Ok(true) && rpc.getAccount(account).Ok?
      && rpc.getMint(rpc.getAccount(account).value.mint).Ok?
    ensures var rpc, account := inp.rpc.value, inp.ata(inp.parseKey(inp.mint.value).value, inp.owner.value);
      var t := rpc.getAccount(account).value;
      && Resolve(inp, prev).state == BalanceState(Some(Finite(DisplayAmount(t.amount, rpc.getMint(t.mint).value))), false, None)
      && Resolve(inp, prev).calls == [GetAccountInfo(account), GetAccount(account), GetMint(t.mint)]
  {
  }

  /** A balance of 0 comes from the chain: zero lamports or a missing token account, never an error. */
  lemma ZeroOnlyFromChain(inp: Inputs, prev: BalanceState)
    requires !MissingInputs(inp)
    requires ResolveAsWritten(inp, prev).state.balance == Some(Finite(0.0))
    ensures inp.parseKey(inp.mint.value).Some? && ResolveAsWritten(inp, prev).state.error == None
    ensures IsNativeMint(inp.mint.value) ==> inp.rpc.value.getBalance(inp.owner.value) == Ok(0)
    ensures !IsNativeMint(inp.mint.value) ==>
      inp.rpc.value.getAccountInfo(inp.ata(inp.parseKey(inp.mint.value).value, inp.owner.value)) == Ok(false)
  {
  }

  /**
   * As written, the `'SOL'` id never reaches the native branch: a key parser that accepts
   * only base58 text rejects it (`O` is not a base58 digit), so the fetch ends in an error.
   */
  lemma SolSymbolRejectedAsWritten(inp: Inputs, prev: BalanceState)
    requires !MissingInputs(inp) && inp.mint.value == "SOL"
    requires forall s :: inp.parseKey(s).Some? ==> IsBase58(s)
    ensures ResolveAsWritten(inp, prev) == Outcome(BalanceState(None, false, Some(InvalidMint("SOL"))), [])
  {
    assert !IsBase58Char("SOL"[1]);
  }

  /** With the native check first, `'SOL'` reads the owner's lamports whatever the parser says. */
  lemma SolSymbolReadsLamports(inp: Inputs, prev: BalanceState)
    requires !MissingInputs(inp) && inp.mint.value == "SOL"
    requires inp.rpc.value.getBalance(inp.owner.value).Ok?
    ensures Resolve(inp, prev).state.balance
         == Some(Finite(DisplayAmount(inp.rpc.value.getBalance(inp.owner.value).value, SolDecimals)))
    ensures Resolve(inp, prev).calls == [GetBalance(inp.owner.value)]
  {
  }

  // ---------------------------------------------------------------------------
  // The hook
  // ---------------------------------------------------------------------------

  /** The state of `useTokenBalance`, and the reads it sent. */
  class BalanceHook {
    var balance: Option<Number>
    var isLoading: bool
    var error: Option<BalanceError>
    ghost var calls: seq<RpcCall>

    function State(): BalanceState
      reads this
    {
      BalanceState(balance, isLoading, error)
    }

    /** The hook starts loading, with no balance and no error. */
    constructor ()
      ensures balance == None && isLoading && error == None && calls == []
    {
      balance := None;
      isLoading := true;
      error := None;
      calls := [];
    }

    /** `fetchBalance`, with the branches in the order the hook takes them; proved equal to `ResolveAsWritten`. */
    method FetchBalance(inp: Inputs)
      modifies this
      ensures State() == ResolveAsWritten(inp, old(State())).state
      ensures calls == old(calls) + ResolveAsWritten(inp, old(State())).calls
    {
      if MissingInputs(inp) {
        balance := None;
        isLoading := false;
        return;
      }
      var owner, rpc, mint := inp.owner.value, inp.rpc.value, inp.mint.value;
      isLoading := true;
      error := None;
      var parsed := inp.parseKey(mint);
      if parsed.None? {
        error := Some(InvalidMint(mint));
        balance := None;
      } else if IsNativeMint(mint) {
        calls := calls + [GetBalance(owner)];
        var lamports := rpc.getBalance(owner);
        if lamports.Ok? {
          balance := Some(Finite(DisplayAmount(lamports.value, SolDecimals)));
        } else {
          error := Some(RpcFailed(lamports.error));
          balance := None;
        }
      } else {
        var account := inp.ata(parsed.value, owner);
        calls := calls + [GetAccountInfo(account)];
        var info := rpc.getAccountInfo(account);
        if info.Err? {
          error := Some(RpcFailed(info.error));
          balance := None;
        } else if info.value {
          calls := calls + [GetAccount(account)];
          var tokenAccount := rpc.getAccount(account);
          if tokenAccount.Ok? {
            // `10 ** tokenAccount.mint.decimals` reads a field the mint's key does not have
            balance := Some(NaN);
          } else {
            error := Some(RpcFailed(tokenAccount.error));
            balance := None;
          }
        } else {
          balance := Some(Finite(0.0));
        }
      }
      isLoading := false;
    }
  }
}

=== FILE: token_select_list.dfy ===
/**
 * The token picker (gswap/src/components/TokenSelectList.tsx): the search filter over the
 * token list, and the dropdown state that a click on an entry resets.
 */
module TokenSelectList {
  import opened Text
  import opened Tokens

  /** A token is shown when the lower-cased term occurs in its lower-cased symbol, name or address. */
  predicate Matches(t: Token, term: string)
    ensures Matches(t, term) <==>
      || (exists i :: OccursAt(ToLower(t.symbol), ToLower(term), i))
      || (exists i :: OccursAt(ToLower(t.name), ToLower(term), i))
      || (exists i :: OccursAt(ToLower(t.address), ToLower(term), i))
  {
    var q := ToLower(term);
    ContainsIffOccurs(ToLower(t.symbol), q);
    ContainsIffOccurs(ToLower(t.name), q);
    ContainsIffOccurs(ToLower(t.address), q);
    Contains(ToLower(t.symbol), q) || Contains(ToLower(t.name), q) || Contains(ToLower(t.address), q)
  }

  /** `filteredTokens`: the tokens that match the search term, in list order. */
  function FilterTokens(tokens: seq<Token>, term: string): (r: seq<Token>)
    ensures forall t :: t in r ==> t in tokens && Matches(t, term)
    ensures forall t :: t in tokens && Matches(t, term) ==> t in r
    ensures |r| <= |tokens|
    decreases |tokens|
  {
    if |tokens| == 0 then []
    else
      var rest := FilterTokens(tokens[1..], term);
      if Matches(tokens[0], term) then [tokens[0]] + rest else rest
  }

  /** The filter keeps the list order: its result is a subsequence of the list. */
  lemma {:induction false} FilterKeepsOrder(tokens: seq<Token>, term: string)
    ensures Subsequence(FilterTokens(tokens, term), tokens)
    decreases |tokens|
  {
    if |tokens| > 0 {
      FilterKeepsOrder(tokens[1..], term);
      var rest := FilterTokens(tokens[1..], term);
      if !Matches(tokens[0], term) {
        SubsequenceOfTail(rest, tokens);
      }
    }
  }

  /** Duplicates are kept: every matching token occurs as often as in the list, others never. */
  lemma {:induction false} FilterCounts(tokens: seq<Token>, term: string, t: Token)
    ensures multiset(FilterTokens(tokens, term))[t] == if Matches(t, term) then multiset(tokens)[t] else 0
    decreases |tokens|
  {
    if |tokens| > 0 {
      FilterCounts(tokens[1..], term, t);
      assert tokens == [tokens[0]] + tokens[1..];
    }
  }

  /** The initial, empty search term shows the whole list. */
  lemma {:induction false} EmptyTermShowsAll(tokens: seq<Token>)
    ensures FilterTokens(tokens, "") == tokens
    decreases |tokens|
  {
    if |tokens| > 0 {
      assert ToLower("") == "";
      ContainsEmpty(ToLower(tokens[0].symbol));
      EmptyTermShowsAll(tokens[1..]);
      assert [tokens[0]] + tokens[1..] == tokens;
    }
  }

  /** Terms that differ only in letter case select the same tokens. */
  lemma {:induction false} FilterIgnoresCase(tokens: seq<Token>, a: string, b: string)
    requires ToLower(a) == ToLower(b)
    ensures FilterTokens(tokens, a) == FilterTokens(tokens, b)
    decreases |tokens|
  {
    if |tokens| > 0 {
      FilterIgnoresCase(tokens[1..], a, b);
    }
  }

  /** In particular, searching with a term or with its lower-cased form gives the same list. */
  lemma FilterLowerCasedTerm(tokens: seq<Token>, term: string)
    ensures FilterTokens(tokens, ToLower(term)) == FilterTokens(tokens, term)
  {
    ToLowerIdempotent(term);
    FilterIgnoresCase(tokens, ToLower(term), term);
  }

  /** The dropdown of one picker: whether it is open and the current search term. */
  class Picker {
    var isOpen: bool
    var searchTerm: string

    constructor ()
      ensures !isOpen && searchTerm == ""
    {
      isOpen := false;
      searchTerm := "";
    }

    /** The button toggles the dropdown. */
    method Toggle()
      modifies this
      ensures isOpen == !old(isOpen) && searchTerm == old(searchTerm)
    {
      isOpen := !isOpen;
    }

    /** Typing into the search box replaces the term. */
    method Search(term: string)
      modifies this
      ensures searchTerm == term && isOpen == old(isOpen)
    {
      searchTerm := term;
    }

    /**
     * A click on the k-th listed entry hands that token to `onSelect` (returned here),
     * closes the dropdown and clears the search term.
     */
    method SelectItem(tokens: seq<Token>, k: nat) returns (selected: Token)
      requires isOpen && k < |FilterTokens(tokens, searchTerm)|
      modifies this
      ensures selected == old(FilterTokens(tokens, searchTerm))[k]
      ensures selected in tokens && Matches(selected, old(searchTerm))
      ensures !isOpen && searchTerm == ""
    {
      selected := FilterTokens(tokens, searchTerm)[k];
      isOpen := false;
      searchTerm := "";
    }
  }
}

=== FILE: tokens.dfy ===
/** The token record of the token list and the `Array.prototype.find` it is searched with. */
module Tokens {
  import opened Wrappers

  /** One entry of the token list. `isNative` is absent (false) for every SPL token. */
  datatype Token = Token(address: string, symbol: string, decimals: nat, name: string, isNative: bool)

  /** `tokens[i]` is the first token that satisfies `p`. */
  predicate IsFirst(tokens: seq<Token>, p: Token -> bool, i: int) {
    0 <= i < |tokens| && p(tokens[i]) && forall j :: 0 <= j < i ==> !p(tokens[j])
  }

  /** Index of the first token that satisfies `p`, if any. */
  function FindIndex(tokens: seq<Token>, p: Token -> bool): (r: Option<nat>)
    ensures r.Some? ==> r.value < |tokens| && p(tokens[r.value])
    ensures r.Some? ==> forall j :: 0 <= j < r.value ==> !p(tokens[j])
    ensures r.None? ==> forall j :: 0 <= j < |tokens| ==> !p(tokens[j])
    decreases |tokens|
  {
    if |tokens| == 0 then None
    else if p(tokens[0]) then Some(0)
    else
      match FindIndex(tokens[1..], p)
      case None => None
      case Some(k) => Some(k + 1)
  }

  /** `tokens.find(p)`: the first token satisfying `p`, or `undefined`. */
  function Find(tokens: seq<Token>, p: Token -> bool): (r: Option<Token>)
    ensures r.Some? ==> r.value in tokens && p(r.value)
    ensures r.Some? ==> exists i :: IsFirst(tokens, p, i) && r.value == tokens[i]
    ensures r.None? ==> forall t :: t in tokens ==> !p(t)
  {
    match FindIndex(tokens, p)
    case None => None
    case Some(k) => Some(tokens[k])
  }

  /** `sub` is `s` with some entries dropped and the rest kept in their order. */
  predicate Subsequence(sub: seq<Token>, s: seq<Token>)
    decreases |s|
  {
    if |sub| == 0 then true
    else if |s| == 0 then false
    else if sub[0] == s[0] then Subsequence(sub[1..], s[1..])
    else Subsequence(sub, s[1..])
  }

  /** A subsequence of the tail is a subsequence of the whole list. */
  lemma {:induction false} SubsequenceOfTail(sub: seq<Token>, s: seq<Token>)
    requires |s| > 0 && Subsequence(sub, s[1..])
    ensures Subsequence(sub, s)
    decreases |s|, 0
  {
    if |sub| > 0 && sub[0] == s[0] {
      // sub[1..] is a subsequence of s[1..] because sub is
      SubsequenceDropHead(sub, s[1..]);
    }
  }

  /** Dropping the first entry of a subsequence keeps it a subsequence. */
  lemma {:induction false} SubsequenceDropHead(sub: seq<Token>, s: seq<Token>)
    requires |sub| > 0 && Subsequence(sub, s)
    ensures Subsequence(sub[1..], s)
    decreases |s|, 1
  {
    if sub[0] == s[0] {
      if |sub| > 1 {
        SubsequenceOfTail(sub[1..], s);
      }
    } else {
      SubsequenceDropHead(sub, s[1..]);
      if |sub| > 1 {
        SubsequenceOfTail(sub[1..], s);
      }
    }
  }
}

=== FILE: transaction_watcher.dfy ===
/**
 * The transaction watcher (gswap/src/hooks/useTransactionWatcher.ts): one toast while a
 * signature is pending, replaced by one success or failure toast once the confirmation
 * settles. The toast library is the `Toaster` class; `confirmTransaction` is an input.
 */
module TransactionWatcher {
  import opened Wrappers
  import opened Text

  /** The three statuses a watched transaction is shown with. */
  datatype Status = Pending | Success | Failed

  /** How `confirmTransaction` settles: resolved with an optional on-chain error, or rejected. */
  datatype Confirmation = Confirmed(err: Option<string>) | Rejected(message: string)

  /** The status the settled confirmation is shown with. */
  function TerminalStatus(c: Confirmation): (r: Status)
    ensures r != Pending
    ensures r == Success <==> c.Confirmed? && c.err.None?
    ensures r == Failed <==> c.Rejected? || c.err.Some?
  {
    match c
    case Confirmed(err) => if err.Some? then Failed else Success
    case Rejected(_) => Failed
  }

  /** The statuses shown for one watched signature, in order. */
  function StatusSequence(c: Confirmation): (r: seq<Status>)
    ensures |r| == 2 && r[0] == Pending && r[1] != Pending
    ensures r[1] == Success <==> c.Confirmed? && c.err.None?
  {
    [Pending, TerminalStatus(c)]
  }

  /** A rejected confirmation request is shown exactly like an on-chain failure. */
  lemma RejectionLooksLikeFailure(message: string, err: string)
    ensures StatusSequence(Rejected(message)) == StatusSequence(Confirmed(Some(err)))
  {
  }

  // ---------------------------------------------------------------------------
  // The explorer link
  // ---------------------------------------------------------------------------

  const ExplorerBase := "https://solana.fm/tx/"
  const ClusterParam := "cluster="

  /** The link every watcher toast carries. */
  function ExplorerLink(txId: string, cluster: string): (r: string)
    ensures ExplorerBase <= r
    ensures |r| == |ExplorerBase| + |txId| + 1 + |ClusterParam| + |cluster|
    ensures r[|ExplorerBase|..|ExplorerBase| + |txId|] == txId
    ensures r[|r| - |cluster|..] == cluster
  {
    ExplorerBase + txId + "?" + ClusterParam + cluster
  }

  /** Reads the signature and the cluster back from an explorer link. */
  function ParseExplorerLink(link: string): Option<(string, string)> {
    if !(ExplorerBase <= link) then None
    else
      match SplitOnce(link[|ExplorerBase|..], '?')
      case None => None
      case Some((txId, query)) =>
        if ClusterParam <= query then Some((txId, query[|ClusterParam|..])) else None
  }

  /** A link names the signature it was made for and the configured cluster. */
  lemma ExplorerLinkRoundTrip(txId: string, cluster: string)
    requires '?' !in txId
    ensures ParseExplorerLink(ExplorerLink(txId, cluster)) == Some((txId, cluster))
  {
    var link := ExplorerLink(txId, cluster);
    assert link == ExplorerBase + (txId + ['?'] + (ClusterParam + cluster));
    assert link[|ExplorerBase|..] == txId + ['?'] + (ClusterParam + cluster);
    SplitOnceAt(txId, ClusterParam + cluster, '?');
    assert (ClusterParam + cluster)[|ClusterParam|..] == cluster;
  }

  // ---------------------------------------------------------------------------
  // Toasts
  // ---------------------------------------------------------------------------

  /** A toast as shown: its id, the status it reports and its explorer link. */
  datatype Toast = Toast(id: nat, status: Status, link: string)

  /** The toast area: the ids on screen, the next id to hand out, and every toast shown. */
  class Toaster {
    var live: set<nat>
    var nextId: nat
    ghost var shown: seq<Toast>

    /** Every id on screen was handed out. */
    predicate Valid()
      reads this
    {
      forall id :: id in live ==> id < nextId
    }

    constructor ()
      ensures Valid() && live == {} && shown == []
    {
      live := {};
      nextId := 0;
      shown := [];
    }

    /** Shows a toast under a fresh id. */
    method Show(status: Status, link: string) returns (id: nat)
      requires Valid()
      modifies this
      ensures Valid()
      ensures id == old(nextId) && nextId == old(nextId) + 1
      ensures id !in old(live) && live == old(live) + {id}
      ensures shown == old(shown) + [Toast(id, status, link)]
    {
      id := nextId;
      nextId := nextId + 1;
      live := live + {id};
      shown := shown + [Toast(id, status, link)];
    }

    /** `toast.dismiss(id)`. */
    method Dismiss(id: nat)
      requires Valid()
      modifies this
      ensures Valid()
      ensures live == old(live) - {id} && shown == old(shown) && nextId == old(nextId)
    {
      live := live - {id};
    }
  }

  /**
   * `showTransactionToast`: dismisses the toast the watcher showed last, if any, and shows
   * the new status; the new id replaces the old one.
   */
  method ShowTransactionToast(toaster: Toaster, previous: Option<nat>, status: Status, txId: string, cluster: string)
    returns (id: nat)
    requires toaster.Valid()
    modifies toaster
    ensures toaster.Valid()
    ensures id !in old(toaster.live)
    ensures toaster.live == (if previous.Some? then old(toaster.live) - {previous.value} else old(toaster.live)) + {id}
    ensures toaster.shown == old(toaster.shown) + [Toast(id, status, ExplorerLink(txId, cluster))]
  {
    var link := ExplorerLink(txId, cluster);
    if previous.Some? {
      toaster.Dismiss(previous.value);
    }
    id := toaster.Show(status, link);
  }

  /**
   * `watchTransaction`: shows the pending status, then the status the confirmation settles
   * with, replacing the pending toast. Both toasts link to the signature on `cluster`.
   */
  method WatchTransaction(toaster: Toaster, signature: string, cluster: string, confirmation: Confirmation)
    returns (statuses: seq<Status>, pendingId: nat, finalId: nat)
    requires toaster.Valid()
    modifies toaster
    ensures toaster.Valid()
    ensures statuses == StatusSequence(confirmation)
    ensures pendingId != finalId && pendingId !in old(toaster.live) && finalId !in old(toaster.live)
    ensures toaster.live == old(toaster.live) + {finalId}
    ensures toaster.shown == old(toaster.shown) + [
      Toast(pendingId, Pending, ExplorerLink(signature, cluster)),
      Toast(finalId, TerminalStatus(confirmation), ExplorerLink(signature, cluster))]
  {
    pendingId := ShowTransactionToast(toaster, None, Pending, signature, cluster);
    var status := TerminalStatus(confirmation);
    finalId := ShowTransactionToast(toaster, Some(pendingId), status, signature, cluster);
    statuses := [Pending, status];
  }
}

=== FILE: wrappers.dfy ===
/** Optional values and results with an error, used for the null and throw paths of the hooks. */
module Wrappers {

  /** `T | null` (or `undefined`) in the source. */
  datatype Option<+T> = None | Some(value: T)

  /** A call that either returns a value or throws an error. */
  datatype Result<+T, +E> = Ok(value: T) | Err(error: E)
}
